=== FILE: README.md ===
# Wealth-management web app: forms, metrics and assistant prompt in Dafny

This project models the logic behind the four pages of a personal-finance web
application and the client it uses for a text-generation API:

- **Onboarding.** Users fill in a profile form: name, monthly income,
  expenses, EMI (loan instalments), and short- and long-term goals. Submitting
  it validates the form and writes one profile document per user.
- **Profile.** The stored profile is loaded into the same form. A snapshot of
  the loaded (or last saved) form decides whether Save and Reset are enabled.
- **Dashboard.** Shows the derived metrics (savings, and the savings, expense
  and EMI percentages of income), the savings card and the "Quick Insights"
  rules.
- **Chat.** Keeps a list of turns: a welcome turn, user turns, replies, and
  apologies marked as errors. It also shows a panel of suggested questions.
- **Assistant client.** Assembles the prompt from the profile and the last
  five turns, sends a fixed request, reads the reply out of the response body,
  and checks the API key.

## How it is modelled

- **Event handlers are pure functions.** Each React event handler is a pure
  function from page state to page state. An `async` handler is split at its
  `await`: `BeginSubmit`/`FinishSubmit`, `BeginSave`/`FinishSave`,
  `BeginSend`/`FinishSend`. The composite `Submit`, `Save` and `Send` take
  what the awaited call returned as a parameter:
  - for the document store, `saved: bool` or a `Fetch`;
  - for the HTTP call, `transport: Request -> Response`.
- **JavaScript semantics are modelled where the pages depend on them**
  (`js_text.dfy`, `js_number.dfy`):
  - `String.prototype.trim`, with the ECMAScript whitespace set;
  - `parseFloat` as a prefix parser, with `None` for NaN;
  - `toFixed(1)`, which rounds the magnitude to tenths with ties away from zero;
  - division by a zero income, which gives `Infinity`, `-Infinity` or `NaN`
    (`Quotient`);
  - `JSON.stringify` comparison of forms (`Forms.Entries`). A stored number
    and its text differ there, so form values are `Str | Num`.
- **Validation is shared.** Both forms share `Forms.Validate`; the flag
  `checkOverspend` is set on onboarding only.
- **Overspending and zero income.** The overspend message starts with
  "Warning:", but it refuses the submission (src/pages/Onboarding.jsx:59-61).
  Nothing guards the dashboard against a zero income, so `Dashboard.ZeroIncome`
  states what it then shows.

## Model

| member | source | states |
|---|---|---|
| JsText.TrimShape | src/pages/Chat.jsx:71 | `trim()` leaves text with no whitespace at either end. That text is cut out of the input with only whitespace before and after it. |
| JsText.TrimOfPadded | src/pages/Onboarding.jsx:69 | Reference characterisation: any whitespace around a string without whitespace at its ends trims back to that string. |
| JsText.TrimEmptyIffBlank | src/pages/Onboarding.jsx:39 | `!s.trim()` holds exactly when every character of `s` is whitespace. This covers the empty string. |
| JsText.TrimIdempotent | src/pages/Profile.jsx:102 | Trimming already-trimmed text changes nothing. |
| JsNumber.ParseFloatShape | src/pages/Onboarding.jsx:43-45 | Text without a single digit parses to NaN. A negative result needs a minus sign after the leading whitespace. |
| JsNumber.ParseFloatSkipsBlank | src/pages/Profile.jsx:81-83 | `parseFloat` ignores leading whitespace. |
| JsNumber.ParseFloatOfNatText | src/pages/Onboarding.jsx:43-45 | The decimal text of every natural number parses back to that number. |
| JsNumber.Round1 | src/pages/Dashboard.jsx:46-50 | `toFixed(1)` denotes a whole number of tenths within 0.05 of the input, with the input's sign. |
| JsNumber.ParseFloatOfToFixed1 | src/pages/Dashboard.jsx:46-50 | For every finite input, the text `toFixed(1)` prints reads back as exactly the rounded value (round trip). |
| JsNumber.Percentage | src/pages/Dashboard.jsx:46-50 | `(part / whole) * 100` is finite exactly when `whole` is non-zero, and then it times `whole` equals `100 * part`. Dividing a positive or negative part by a (positive) zero gives `Infinity` or `-Infinity`, and zero by zero gives NaN. |
| JsNumber.Round1Above | src/pages/Dashboard.jsx:183 | The rounded text compares greater than `m/10` exactly when the exact value is at least halfway past `m/10`. |
| JsNumber.Round1AtLeast | src/pages/Dashboard.jsx:197 | The rounded text compares at least `m/10` exactly when the exact value is at most halfway short of `m/10`. |
| Forms.SetField | src/pages/Onboarding.jsx:26-32 | The field named by the input takes the typed text, and every other field keeps its value. |
| Forms.HasChanges | src/pages/Profile.jsx:68-70 | The form counts as changed exactly when the snapshot is missing or differs from it. |
| Forms.ChangedIffSomeFieldDiffers | src/pages/Profile.jsx:68-70 | A form differs from its snapshot exactly when at least one of the six fields differs. |
| Forms.Validate | src/pages/Onboarding.jsx:39-77 | Each refusal is reported exactly when every earlier check passes and its own fails: blank name, then income, expenses and EMI (NaN or negative), then overspending on onboarding. Success holds exactly when all pass. A success carries the trimmed texts and the parsed amounts, all non-negative. |
| Forms.ValidateReportsFirstFailure | src/pages/Profile.jsx:77-95 | The nested `if`s report the error of the first failing check in the ordered check list, and fail exactly when some check fails. |
| Forms.ProfileChecksArePrefix | src/pages/Profile.jsx:77-95 | The profile page's validation is the onboarding chain without its overspend check. An earlier refusal is the same on both pages, and an overspending form passes on the profile page. |
| Onboarding.Change | src/pages/Onboarding.jsx:26-32 | Only the edited field changes. The error, loading and redirect state stay as they were. |
| Onboarding.BeginSubmit | src/pages/Onboarding.jsx:35-65 | The submission is refused with its message exactly when validation fails. Otherwise the error clears, loading starts, and the record built from the validated fields and the user's email is sent. |
| Onboarding.FinishSubmit | src/pages/Onboarding.jsx:79-89 | A successful write redirects. A failed one shows the save-failure message. Loading ends either way. |
| Onboarding.Submit | src/pages/Onboarding.jsx:35-90 | A record is written exactly when the form validates. The record is well-formed, carries the email, trimmed texts and parsed amounts, and its expenses plus EMI do not exceed its income. A refusal shows its message and writes nothing. |
| Onboarding.BlankNameAlwaysRefused | src/pages/Onboarding.jsx:39-41 | A blank name is refused with the name message whatever the other fields hold. |
| Onboarding.OverspendBlocksButEqualityPasses | src/pages/Onboarding.jsx:59-61 | Expenses plus EMI above the income block the submission. Spending exactly the income is accepted. |
| Onboarding.TextIncomeRefused | src/pages/Onboarding.jsx:43-49 | An income typed as "abc" is refused with the income message. |
| Onboarding.DecimalOverspendRefused | src/pages/Onboarding.jsx:43-61 | Whole amounts typed as decimal text whose expenses plus EMI exceed the income are refused as overspending (e.g. 40000 + 20000 against 50000). |
| ProfilePage.LoadedFormAsWritten | src/pages/Profile.jsx:35-40 | Texts are copied. A stored amount of 0 becomes empty text, which parses to NaN. Every other stored amount is kept. |
| ProfilePage.LoadedForm | src/pages/Profile.jsx:35-40 | Corrected load: every stored amount, 0 included, parses back to itself. |
| ProfilePage.Load | src/pages/Profile.jsx:28-54 | A found profile fills the form and the snapshot with the same value, so nothing counts as changed. The EMI field is empty exactly when the stored EMI is 0. A missing profile leaves the empty form. A failed fetch shows the load message. Loading ends in every case. |
| ProfilePage.LoadCorrected | src/pages/Profile.jsx:28-54 | Same as `Load`, except that a found profile fills the form with the corrected `LoadedForm`. |
| ProfilePage.Change | src/pages/Profile.jsx:57-65 | Exactly the edited field changes, and both messages clear. The snapshot and the saving flag stay as they were. |
| ProfilePage.ApplyEdits | src/pages/Profile.jsx:57-65 | A run of edits leaves the snapshot alone and, when non-empty, clears both messages. |
| ProfilePage.BeginSave | src/pages/Profile.jsx:73-108 | The save is refused with its message exactly when validation without the overspend check fails. Otherwise saving starts with the submitted form and its validated update. |
| ProfilePage.FinishSave | src/pages/Profile.jsx:110-122 | A successful write makes the submitted form the snapshot and shows the success message. A failed one keeps the snapshot and shows the failure message. Saving ends either way. |
| ProfilePage.Save | src/pages/Profile.jsx:73-123 | An update is sent exactly when the form validates, and it is the validated update. After a successful save nothing counts as changed, so Save and Reset are disabled again. |
| ProfilePage.ClearSuccess | src/pages/Profile.jsx:116 | The timer callback removes only the success message. |
| ProfilePage.ResetAsWritten | src/pages/Profile.jsx:126-130 | Reset crashes exactly when there is no snapshot. Otherwise it does what the corrected `Reset` does: the form becomes the snapshot, the snapshot and saving flag are kept, both messages clear, and nothing counts as changed. |
| ProfilePage.Reset | src/pages/Profile.jsx:126-130 | Corrected reset: with a snapshot the form returns to it, so nothing counts as changed. Without one the form is kept. Both messages clear. |
| ProfilePage.ResetWithoutProfileCrashes | src/pages/Profile.jsx:126-127 | If no profile was loaded, Reset is enabled, because a missing snapshot differs from every form. As written, clicking it crashes. The corrected reset keeps the empty form. |
| ProfilePage.ResetRestoresSnapshot | src/pages/Profile.jsx:126-130 | After any sequence of edits, Reset returns the form to the snapshot and disables both buttons. |
| ProfilePage.ZeroEmiRefusedAsWritten | src/pages/Profile.jsx:35-40 | As written, a profile stored with EMI 0 and saved back after a goal edit is refused for the EMI, and nothing is written. |
| ProfilePage.SavedBackAfterGoalEdit | src/pages/Profile.jsx:101-108 | With the corrected load, a well-formed profile saved back after a goal edit writes its stored name and amounts and the trimmed goal. |
| ProfilePage.ZeroAmountRoundTrip | src/pages/Profile.jsx:35-40 | With the corrected load, the untouched form validates to the stored fields. As written, it fails exactly when some stored amount is 0. |
| Dashboard.CalculateMetrics | src/pages/Dashboard.jsx:42-58 | No metrics without a profile. Otherwise savings plus expenses plus EMI equal the income, and each ratio is its amount as a percentage of income, division by zero included. |
| Dashboard.Insights | src/pages/Dashboard.jsx:172-202 | The first insight is the savings praise or, with a shortfall, the overspend warning carrying the positive shortfall. Each later rule appears exactly when its rounded percentage passes its threshold: expenses above 70, EMI above 40, savings at least 20. No insight appears twice, every later entry is one of those three rules with the metrics' own ratio, and the display order is fixed: expenses right after the first, excellent savings last. |
| Dashboard.InsightThresholds | src/pages/Dashboard.jsx:183-202 | With a positive income, each rule is a threshold on the exact amounts: expenses at least 70.05%, EMI at least 40.05%, savings at least 19.95% of income. |
| Dashboard.ExpenseThreshold | src/pages/Dashboard.jsx:183 | The expense warning shows exactly when the expenses are at least 70.05% of a positive income. |
| Dashboard.EmiThreshold | src/pages/Dashboard.jsx:190 | The EMI warning shows exactly when the EMI is at least 40.05% of a positive income. |
| Dashboard.SavingsThreshold | src/pages/Dashboard.jsx:197 | The excellent-savings message shows exactly when savings are at least 19.95% of a positive income. |
| Dashboard.ZeroIncome | src/pages/Dashboard.jsx:45-50 | With income 0 (positive zero), any expense or EMI raises its warning, the excellent-savings message never shows, and with nothing spent the praise shows a NaN rate. |
| Dashboard.ExampleInsights | src/pages/Dashboard.jsx:172-202 | Income 10000, expenses 8000, EMI 0 show the praise at 20%, the expense warning at 80%, and the excellent-savings message. |
| Dashboard.SavingsCardOf | src/pages/Dashboard.jsx:129-144 | The card is styled negative exactly when savings are negative. It shows the savings rate exactly when it is not negative; otherwise it shows the overspending note. |
| Dashboard.GoalText | src/pages/Dashboard.jsx:157 | A goal is shown as stored, and an empty one as "No goals set yet". |
| Dashboard.AfterFetch | src/pages/Dashboard.jsx:18-39 | A missing profile redirects to onboarding, and a failed fetch shows the load message, each exactly then. An overview carries the fetched profile with its metrics, insights and card. |
| Gemini.GoalOrDefault | src/services/geminiService.js:33-34 | A goal is put in the prompt as stored, and an empty one as "Not specified". |
| Gemini.RecentHistory | src/services/geminiService.js:51 | `slice(-5)` keeps the last min(5, n) turns, as a suffix of the history. |
| Gemini.WindowSlides | src/services/geminiService.js:51 | The window after a new turn is the window before it, with that turn appended, cut to five. |
| Gemini.HistoryTextAt | src/services/geminiService.js:52-54 | Each turn contributes its own labelled line, and the lines keep the turns' order. |
| Gemini.PromptLayout | src/services/geminiService.js:25-57 | The prompt is the system context, a blank line, one line per turn of the last min(5, n) turns in order, then the message and the assistant cue. |
| Gemini.RequestFor | src/services/geminiService.js:60-76 | The request carries the prompt unchanged and the fixed settings: temperature 0.7, topK 40, topP 0.95, 1024 output tokens. |
| Gemini.ExtractReply | src/services/geminiService.js:87-100 | A non-2xx status is an API error carrying the status. A 2xx status succeeds exactly when the first candidate's first part has non-empty text, and the reply is that text. Anything else is an invalid format. |
| Gemini.ExtractReplyWith | src/services/geminiService.js:96-97 | A well-shaped response gives its text back unchanged, and an empty text is invalid. |
| Gemini.Ask | src/services/geminiService.js:79-100 | The reply is read from the response to the request carrying the prompt. A non-2xx status is an API error with that status. Otherwise the call succeeds exactly when the first candidate's first part has non-empty text, and returns that text; else it fails as an invalid format. It never fails for a missing profile. |
| Gemini.GenerateResponse | src/services/geminiService.js:14-22 | It fails for a missing profile exactly when there is none. With a profile, the reply is read from the response to the request carrying the assembled prompt, with the same status, success and text rules as `Ask`. A successful reply is non-empty. |
| Gemini.IsConfigured | src/services/geminiService.js:111-113 | The key counts as configured only when it is set and non-empty, and then exactly when it is not the text "undefined". `Chat.BeginSend` states that an unconfigured key is what stops a send. |
| Chat.WelcomeText | src/pages/Chat.jsx:34 | The welcome text has the user's name and the formatted income at their fixed places. |
| Chat.Loaded | src/pages/Chat.jsx:22-48 | A found profile seeds exactly one assistant turn, the welcome. A missing one changes nothing but the loading flag. A failed fetch shows the load message. |
| Chat.EditInput | src/pages/Chat.jsx:229 | Typing changes only the input box. |
| Chat.ClickSuggestion | src/pages/Chat.jsx:126-128 | A suggestion goes into the input box, which is then not blank. Nothing is sent. |
| Chat.ReplyTurn | src/pages/Chat.jsx:90-111 | The appended turn is the assistant's. It is marked as an error exactly when the call failed, and then its text is the apology. |
| Chat.BeginSend | src/pages/Chat.jsx:60-84 | A blank input is ignored, and only then. A non-blank input with an unconfigured key shows the key message, and only then. Otherwise the trimmed message is appended as a user turn, the input clears, loading starts, and the call gets the earlier turns. |
| Chat.FinishSend | src/pages/Chat.jsx:86-114 | The reply turn is appended after the existing turns, and loading ends. |
| Chat.Send | src/pages/Chat.jsx:60-115 | Blank input changes nothing, and a missing key only shows its message. Otherwise exactly two turns are appended after the untouched earlier turns: the trimmed message, then the reply or the apology. The reply is produced from the turns as they were before the send. |
| Chat.SendKeepsEarlierTurns | src/pages/Chat.jsx:83-111 | A send never removes or rewrites an earlier turn. |
| Chat.FailedCallAppendsApology | src/pages/Chat.jsx:99-111 | A failed call, or a chat without a profile, ends with the apology marked as an error, and the page is idle again. |
| Chat.DisabledSendIsIgnored | src/pages/Chat.jsx:236 | When no reply is pending, the send button is disabled exactly when a send would be ignored. |
| Chat.SuggestionsOnlyBeforeFirstSend | src/pages/Chat.jsx:200 | The suggestions show right after the welcome is seeded and not after a message has been sent. |
| Chat.SuggestionSentVerbatim | src/pages/Chat.jsx:126-128 | A clicked suggestion, once sent, is the text of the new user turn, unchanged. |

## Left out

- JsNumber.ParseFloat: "Infinity", "-Infinity" and literals beyond the double range ("1e400") do not parse to infinity. "Infinity" parses to NaN and "1e400" to its exact value. The amounts come from `type="number"` inputs, which never hold "Infinity".
- JsNumber.ParseFloat: the result is the exact decimal value, not the nearest IEEE double. Every amount, sum and ratio is an exact real. Floating-point rounding (e.g. `0.1 + 0.2 > 0.3`) is not modelled.
- JsNumber.ToFixed1: magnitudes of 1e21 and above are printed as digits. JavaScript prints them in exponent form there, as `String(x)` does.
- JsNumber.Percentage: negative zero is not modelled. The profile form accepts the income text "-0" (it parses to -0, which is not below 0), and dividing by -0 flips the sign of the infinities. With an income of -0 the source shows no expense or EMI warning and does show the excellent-savings message; the model gives the results for +0.
- Dashboard.ZeroIncome: stated for a positive-zero income only, for the same reason; with -0 the signs of the infinite ratios are reversed.
- JsNumber.ToFixed1: negative zero is not modelled. The reals have a single zero, so `(-0).toFixed(1)` and `(0).toFixed(1)` both give "0.0".
- Gemini.Ask: the `transport` parameter returns a response with a decoded body. It cannot represent a rejected `fetch` (network error) or a body that is not JSON (src/services/geminiService.js:79-93). In the source both throw, and the chat page shows the apology, exactly as for any `Failure`.
- Amount formatting: `toLocaleString()` is locale-dependent, so the prompt, the welcome text and the savings card take it as an opaque parameter `fmt`.
- Chat turns: message ids and timestamps (`Date.now()`, `new Date()`) and auto-scrolling are not modelled. Turns keep only role, text and the error mark.
- Onboarding.Record: the `createdAt` timestamp and the store's `updatedAt` are not part of the record. The store's `merge: true` write is a single `saved` outcome.
- Forms.Validate: the browser's own constraint checks on the inputs (`required`, `type="number"`, `min="0"`, `step="1000"`) are not modelled. In a browser, `step="1000"` blocks any amount that is not a multiple of 1000 before the handler runs. These are at src/pages/Onboarding.jsx:107-157 and src/pages/Profile.jsx:161-224. Any text can reach the handlers in the model, so the handlers' own checks are the ones stated.
- ProfilePage.ClearSuccess: the three-second `setTimeout` delay is not modelled. The callback is a separate step that can come at any point.
- Stored documents: documents with missing or non-numeric fields (written by something other than onboarding) are not modelled. Every stored profile has all seven fields.
- Concurrency between handlers (a second click while a call is pending, a page unmounting mid-call) is not modelled beyond the disabled controls. Each composite step runs with no interleaved event.
- src/services/firestoreService.js, src/components/Navbar.jsx and src/components/ProtectedRoute.jsx are not part of this model. The store calls become the `Fetch` and `saved` inputs, and navigation becomes the `redirected` flag and `Dashboard.RedirectToOnboarding`.

## Findings

| source | as written | input that shows it | evidently intended | confidence | as-written member | corrected member |
|---|---|---|---|---|---|---|
| src/pages/Profile.jsx:35-40 | Each loaded field falls back to empty text whenever the stored value is falsy. A stored amount of 0 is falsy, so the field shows empty text, which `parseFloat` reads as NaN. | A profile stored with EMI 0 (onboarding accepts it). Edit a goal and press Save: the EMI field is empty, so nothing is written. In a browser the input's `required` attribute stops the submission before the handler runs; without it the handler refuses with "Please enter a valid EMI amount". | Default only a missing field (nullish coalescing), so a stored 0 loads as 0 and saves back unchanged. | not executed | ProfilePage.Load / ProfilePage.ZeroEmiRefusedAsWritten | ProfilePage.LoadCorrected / ProfilePage.SavedBackAfterGoalEdit |
| src/pages/Profile.jsx:126-127 | Reset sets the form to the snapshot even when the snapshot is `null`. That happens when no profile was loaded, and Reset is enabled then because `null` differs from every form. | Open the profile page with no stored profile (or after a failed fetch) and click Reset: the form becomes `null`, and the next render reads `formData.name` and throws. | Leave the form as it is when there is no snapshot, or keep Reset disabled then. | not executed | ProfilePage.ResetAsWritten / ProfilePage.ResetWithoutProfileCrashes | ProfilePage.Reset |

=== FILE: chat.dfy ===
/**
 * The chat page: the welcome turn, sending a message (blank input ignored,
 * a missing API key reported, otherwise a user turn and then the reply or
 * an apology), and the suggestion panel.
 */
module Chat {
  import opened Wrappers
  import opened Profiles
  import opened Gemini
  import JsText

  /** Page state: the profile, the turns, the input box, and the flags and error shown. */
  datatype Page = Page(
    profile: Option<UserProfile>,
    turns: seq<Turn>,
    input: string,
    loading: bool,
    error: string,
    profileLoading: bool)

  const Initial: Page := Page(None, [], "", false, "", true)

  const LoadFailedMessage: string := "Failed to load your profile"
  const NotConfiguredMessage: string :=
    "Gemini API key is not configured. Please add VITE_GEMINI_API_KEY to your .env file."
  const Apology: string :=
    "I apologize, but I'm having trouble processing your request right now. This could be due to API connectivity issues. Please try again in a moment."

  const WelcomeOpening: string := "Hi "
  const WelcomeMiddle: string := "! \U{1F44B} I'm your AI wealth advisor. I can see you earn \U{20B9}"
  const WelcomeClosing: string :=
    " per month. I'm here to help you with financial planning, investment advice, budgeting tips, and achieving your goals. What would you like to discuss today?"

  /** The welcome text; it names the user and shows the formatted income. */
  function WelcomeText(p: UserProfile, fmt: AmountFormat): (t: string)
    ensures |t| == |WelcomeOpening| + |p.name| + |WelcomeMiddle| + |fmt(p.income)| + |WelcomeClosing|
    ensures t[|WelcomeOpening|..|WelcomeOpening| + |p.name|] == p.name
    ensures
      var at := |WelcomeOpening| + |p.name| + |WelcomeMiddle|;
      t[at..at + |fmt(p.income)|] == fmt(p.income)
  {
    WelcomeOpening + p.name + WelcomeMiddle + fmt(p.income) + WelcomeClosing
  }

  /** The fetch on mount: a found profile seeds exactly one assistant turn. */
  function Loaded(page: Page, fetch: Fetch, fmt: AmountFormat): (r: Page)
    ensures !r.profileLoading && r.input == page.input && r.loading == page.loading
    ensures fetch.Found? ==>
      && r.profile == Some(fetch.profile)
      && r.turns == [Turn(Assistant, WelcomeText(fetch.profile, fmt), false)]
    ensures fetch.NotFound? ==> r == page.(profileLoading := false)
    ensures fetch.FetchFailed? ==> r == page.(error := LoadFailedMessage, profileLoading := false)
  {
    match fetch
    case Found(p) =>
      page.(profile := Some(p), turns := [Turn(Assistant, WelcomeText(p, fmt), false)], profileLoading := false)
    case NotFound => page.(profileLoading := false)
    case FetchFailed => page.(error := LoadFailedMessage, profileLoading := false)
  }

  /** Typing in the input box. */
  function EditInput(page: Page, text: string): (r: Page)
    ensures r.input == text && r.turns == page.turns && r.error == page.error && r.loading == page.loading
  {
    page.(input := text)
  }

  const SuggestedQuestions: seq<string> := [
    "How can I save more money each month?",
    "What investments should I consider?",
    "How can I reduce my expenses?",
    "Should I pay off my loans faster?",
    "Help me create a budget plan"
  ]

  /** The panel of suggested questions shows only beside the welcome turn alone, when idle. */
  predicate SuggestionsVisible(page: Page) {
    |page.turns| == 1 && !page.loading
  }

  /** `disabled={loading || !inputMessage.trim()}` on the send button. */
  predicate SendDisabled(page: Page) {
    page.loading || JsText.Trim(page.input) == []
  }

  /** `handleSuggestionClick`: the question goes into the input box and nothing is sent. */
  function ClickSuggestion(page: Page, i: nat): (r: Page)
    requires i < |SuggestedQuestions|
    ensures r.input == SuggestedQuestions[i] && !JsText.Blank(r.input)
    ensures r.turns == page.turns && r.loading == page.loading && r.error == page.error
  {
    assert SuggestedQuestions[i][0] != ' ' && SuggestedQuestions[i][0] in "HWS";
    page.(input := SuggestedQuestions[i])
  }

  /** The assistant turn appended for the call's outcome. */
  function ReplyTurn(reply: Result<string, AssistantError>): (t: Turn)
    ensures t.role == Assistant
    ensures t.isError <==> reply.Failure?
    ensures t.text == if reply.Success? then reply.value else Apology
  {
    match reply
    case Success(text) => Turn(Assistant, text, false)
    case Failure(_) => Turn(Assistant, Apology, true)
  }

  /** First half of `handleSendMessage`. */
  datatype SendStep =
    | Ignored                                                  // blank input
    | NotConfigured(page: Page)                                // the key check failed
    | Pending(page: Page, message: string, history: seq<Turn>) // user turn shown, call started

  function BeginSend(page: Page, key: Option<string>): (r: SendStep)
    ensures r.Ignored? <==> JsText.Blank(page.input)
    ensures r.NotConfigured? <==> !JsText.Blank(page.input) && !IsConfigured(key)
    ensures r.NotConfigured? ==> r.page == page.(error := NotConfiguredMessage)
    ensures r.Pending? ==>
      && r.message == JsText.Trim(page.input) && r.message != []
      && r.history == page.turns
      && r.page.turns == page.turns + [Turn(User, r.message, false)]
      && r.page.input == "" && r.page.error == "" && r.page.loading
      && r.page.profile == page.profile
  {
    JsText.TrimEmptyIffBlank(page.input);
    if JsText.Trim(page.input) == [] then
      Ignored
    else if !IsConfigured(key) then
      NotConfigured(page.(error := NotConfiguredMessage))
    else
      var message := JsText.Trim(page.input);
      Pending(
        page.(input := "", error := "", turns := page.turns + [Turn(User, message, false)], loading := true),
        message, page.turns)
  }

  /** Second half: the reply, or the apology flagged as an error, is appended; `loading` ends false. */
  function FinishSend(page: Page, reply: Result<string, AssistantError>): (r: Page)
    ensures r.turns == page.turns + [ReplyTurn(reply)]
    ensures !r.loading && r.input == page.input && r.error == page.error
  {
    page.(turns := page.turns + [ReplyTurn(reply)], loading := false)
  }

  /**
   * `handleSendMessage` from start to finish: the assistant is asked with
   * the turns as they were before the user turn was appended, through
   * `transport` (the HTTP call) and with `fmt` formatting amounts.
   */
  function Send(page: Page, key: Option<string>, fmt: AmountFormat, transport: Request -> Response): (r: Page)
    ensures JsText.Blank(page.input) ==> r == page
    ensures !JsText.Blank(page.input) && !IsConfigured(key) ==> r == page.(error := NotConfiguredMessage)
    ensures !JsText.Blank(page.input) && IsConfigured(key) ==>
      var n := |page.turns|;
      var message := JsText.Trim(page.input);
      && |r.turns| == n + 2
      && r.turns[..n] == page.turns
      && r.turns[n] == Turn(User, message, false)
      && r.turns[n + 1] == ReplyTurn(GenerateResponse(message, page.profile, page.turns, fmt, transport))
      && r.input == "" && r.error == "" && !r.loading
      && r.profile == page.profile
  {
    match BeginSend(page, key)
    case Ignored => page
    case NotConfigured(q) => q
    case Pending(q, message, history) =>
      var reply := ReplyTurn(GenerateResponse(message, q.profile, history, fmt, transport));
      var r := FinishSend(q, GenerateResponse(message, q.profile, history, fmt, transport));
      AppendPair(page.turns, Turn(User, message, false), reply);
      r
  }

  /** Two turns appended one after the other. */
  lemma AppendPair(a: seq<Turn>, x: Turn, y: Turn)
    ensures |a + [x] + [y]| == |a| + 2
    ensures (a + [x] + [y])[..|a|] == a
    ensures (a + [x] + [y])[|a|] == x && (a + [x] + [y])[|a| + 1] == y
  {
  }

  /** Turns are never removed or rewritten by a send. */
  lemma SendKeepsEarlierTurns(page: Page, key: Option<string>, fmt: AmountFormat, transport: Request -> Response)
    ensures |Send(page, key, fmt, transport).turns| >= |page.turns|
    ensures Send(page, key, fmt, transport).turns[..|page.turns|] == page.turns
  {
    if !JsText.Blank(page.input) && IsConfigured(key) {
      var r := Send(page, key, fmt, transport);
      assert r.turns[..|page.turns|] == page.turns;
    }
  }

  /**
   * A failed call, or a chat opened without a profile, ends the send with
   * the apology flagged as an error, and the page is idle again.
   */
  lemma FailedCallAppendsApology(page: Page, key: Option<string>, fmt: AmountFormat, transport: Request -> Response)
    requires !JsText.Blank(page.input) && IsConfigured(key)
    requires GenerateResponse(JsText.Trim(page.input), page.profile, page.turns, fmt, transport).Failure?
    ensures
      var r := Send(page, key, fmt, transport);
      && |r.turns| == |page.turns| + 2
      && r.turns[|page.turns| + 1] == Turn(Assistant, Apology, true)
      && !r.loading && r.error == ""
  {
  }

  /** The send button is disabled exactly when a click would do nothing. */
  lemma DisabledSendIsIgnored(page: Page, key: Option<string>, fmt: AmountFormat, transport: Request -> Response)
    requires !page.loading
    ensures SendDisabled(page) <==> BeginSend(page, key).Ignored?
  {
    JsText.TrimEmptyIffBlank(page.input);
  }

  /**
   * The suggestions show right after the welcome turn is seeded and never
   * again once a message has been sent.
   */
  lemma SuggestionsOnlyBeforeFirstSend(page: Page, fetch: Fetch, fmt: AmountFormat,
                                       key: Option<string>, transport: Request -> Response)
    requires fetch.Found? && !page.loading
    ensures SuggestionsVisible(Loaded(page, fetch, fmt))
    ensures
      var q := Loaded(page, fetch, fmt);
      !JsText.Blank(q.input) && IsConfigured(key) ==> !SuggestionsVisible(Send(q, key, fmt, transport))
  {
  }

  /** A clicked suggestion, once sent, is the text of the new user turn, unchanged. */
  lemma SuggestionSentVerbatim(page: Page, i: nat, key: Option<string>, fmt: AmountFormat,
                               transport: Request -> Response)
    requires i < |SuggestedQuestions| && IsConfigured(key)
    ensures Send(ClickSuggestion(page, i), key, fmt, transport).turns[|page.turns|]
            == Turn(User, SuggestedQuestions[i], false)
  {
    var s := SuggestedQuestions[i];
    assert JsText.Tight(s) by {
      assert s[0] in "HWS";
      assert s[|s| - 1] in "?hrn";
    }
    assert [] + s + [] == s;
    JsText.TrimOfPadded([], s, []);
  }
}

=== FILE: dashboard.dfy ===
/**
 * The dashboard: the missing-profile redirect, the derived metrics, the
 * savings card and the independent insight rules.
 */
module Dashboard {
  import opened Wrappers
  import opened Profiles
  import opened JsNumber

  /** `calculateMetrics()`: savings, and the three percentages before `toFixed(1)`. */
  datatype Metrics = Metrics(savings: real, savingsRate: Quotient, expenseRatio: Quotient, emiRatio: Quotient)

  /** Nothing without a profile; otherwise savings and each amount as a percentage of income. */
  function CalculateMetrics(userData: Option<UserProfile>): (r: Option<Metrics>)
    ensures r.None? <==> userData.None?
    ensures r.Some? ==>
      var p := userData.value;
      && r.value.savings + p.expenses + p.emi == p.income
      && r.value.savingsRate == Percentage(r.value.savings, p.income)
      && r.value.expenseRatio == Percentage(p.expenses, p.income)
      && r.value.emiRatio == Percentage(p.emi, p.income)
  {
    match userData
    case None => None
    case Some(p) =>
      var savings := p.income - p.expenses - p.emi;
      Some(Metrics(
        savings,
        Percentage(savings, p.income),
        Percentage(p.expenses, p.income),
        Percentage(p.emi, p.income)))
  }

  /** One message of the "Quick Insights" list. */
  datatype Insight =
    | Saving(rate: Quotient)        // praise, with the savings rate
    | Overspent(shortfall: real)    // warning, with the amount spent beyond income
    | HighExpenses(ratio: Quotient) // advice to cut spending, with the expense ratio
    | HighEmi(ratio: Quotient)      // warning that the EMI share of income is above 40%, with the EMI ratio
    | ExcellentSavings              // praise that the savings rate is on track for the goals

  /** The insights shown, in display order; each rule is evaluated on its own. */
  function Insights(m: Metrics): (r: seq<Insight>)
    ensures |r| >= 1
    ensures m.savings >= 0.0 ==> r[0] == Saving(m.savingsRate)
    ensures m.savings < 0.0 ==> r[0] == Overspent(-m.savings) && r[0].shortfall > 0.0
    ensures forall i :: 1 <= i < |r| ==> !r[i].Saving? && !r[i].Overspent?
    ensures HighExpenses(m.expenseRatio) in r <==> FixedAbove(m.expenseRatio, 70.0)
    ensures HighEmi(m.emiRatio) in r <==> FixedAbove(m.emiRatio, 40.0)
    ensures ExcellentSavings in r <==> FixedAtLeast(m.savingsRate, 20.0)
    ensures forall i :: 1 <= i < |r| ==> r[i] in {HighExpenses(m.expenseRatio), HighEmi(m.emiRatio), ExcellentSavings}
    ensures forall i, j :: 0 <= i < j < |r| ==> r[i] != r[j]
    ensures HighExpenses(m.expenseRatio) in r ==> r[1] == HighExpenses(m.expenseRatio)
    ensures ExcellentSavings in r ==> r[|r| - 1] == ExcellentSavings
  {
    [if m.savings >= 0.0 then Saving(m.savingsRate) else Overspent(-m.savings)]
    + (if FixedAbove(m.expenseRatio, 70.0) then [HighExpenses(m.expenseRatio)] else [])
    + (if FixedAbove(m.emiRatio, 40.0) then [HighEmi(m.emiRatio)] else [])
    + (if FixedAtLeast(m.savingsRate, 20.0) then [ExcellentSavings] else [])
  }

  /** The detail line of the savings card. */
  datatype CardDetail = RateDetail(rate: Quotient) | OverspendingDetail

  /** The savings card: its `negative` style and its detail line. */
  datatype SavingsCard = SavingsCard(negative: bool, detail: CardDetail)

  function SavingsCardOf(m: Metrics): (c: SavingsCard)
    ensures c.negative <==> m.savings < 0.0
    ensures c.detail.RateDetail? <==> !c.negative
    ensures c.detail.RateDetail? ==> c.detail.rate == m.savingsRate
  {
    if m.savings < 0.0 then SavingsCard(true, OverspendingDetail)
    else SavingsCard(false, RateDetail(m.savingsRate))
  }

  /** `goals || "No goals set yet"`. */
  function GoalText(goals: string): (t: string)
    ensures t != []
    ensures goals != [] ==> t == goals
    ensures goals == [] ==> t == "No goals set yet"
  {
    if goals == [] then "No goals set yet" else goals
  }

  /** What the dashboard shows once its fetch has settled. */
  datatype View =
    | RedirectToOnboarding
    | LoadFailed(message: string)
    | Overview(profile: UserProfile, metrics: Metrics, insights: seq<Insight>, card: SavingsCard)

  const LoadFailedMessage: string := "Failed to load profile data"

  /** A missing profile navigates to onboarding and nothing is computed. */
  function AfterFetch(fetch: Fetch): (v: View)
    ensures fetch.NotFound? <==> v.RedirectToOnboarding?
    ensures fetch.FetchFailed? <==> v == LoadFailed(LoadFailedMessage)
    ensures v.Overview? ==>
      && fetch == Found(v.profile)
      && Some(v.metrics) == CalculateMetrics(Some(v.profile))
      && v.insights == Insights(v.metrics)
      && v.card == SavingsCardOf(v.metrics)
  {
    match fetch
    case NotFound => RedirectToOnboarding
    case FetchFailed => LoadFailed(LoadFailedMessage)
    case Found(p) =>
      var m := CalculateMetrics(Some(p)).value;
      Overview(p, m, Insights(m), SavingsCardOf(m))
  }

  /**
   * With a positive income, each rule is a threshold on the exact ratio:
   * the rounded percentage crosses 70, 40 or 20 exactly when the exact one
   * reaches 70.05, 40.05 or 19.95.
   */
  lemma InsightThresholds(p: UserProfile)
    requires p.income > 0.0
    ensures
      var m := CalculateMetrics(Some(p)).value;
      && (HighExpenses(m.expenseRatio) in Insights(m) <==> 100.0 * p.expenses >= 70.05 * p.income)
      && (HighEmi(m.emiRatio) in Insights(m) <==> 100.0 * p.emi >= 40.05 * p.income)
      && (ExcellentSavings in Insights(m) <==> 100.0 * m.savings >= 19.95 * p.income)
  {
    ExpenseThreshold(p);
    EmiThreshold(p);
    SavingsThreshold(p);
  }

  lemma ExpenseThreshold(p: UserProfile)
    requires p.income > 0.0
    ensures
      var m := CalculateMetrics(Some(p)).value;
      FixedAbove(m.expenseRatio, 70.0) <==> 100.0 * p.expenses >= 70.05 * p.income
  {
    var m := CalculateMetrics(Some(p)).value;
    Round1Above(m.expenseRatio.value, 700);
    RatioScale(p.expenses, p.income, 70.05);
  }

  lemma EmiThreshold(p: UserProfile)
    requires p.income > 0.0
    ensures
      var m := CalculateMetrics(Some(p)).value;
      FixedAbove(m.emiRatio, 40.0) <==> 100.0 * p.emi >= 40.05 * p.income
  {
    var m := CalculateMetrics(Some(p)).value;
    Round1Above(m.emiRatio.value, 400);
    RatioScale(p.emi, p.income, 40.05);
  }

  lemma SavingsThreshold(p: UserProfile)
    requires p.income > 0.0
    ensures
      var m := CalculateMetrics(Some(p)).value;
      FixedAtLeast(m.savingsRate, 20.0) <==> 100.0 * m.savings >= 19.95 * p.income
  {
    var m := CalculateMetrics(Some(p)).value;
    Round1AtLeast(m.savingsRate.value, 200);
    RatioScale(m.savings, p.income, 19.95);
  }

  lemma RatioScale(part: real, whole: real, t: real)
    requires whole > 0.0
    ensures part / whole * 100.0 >= t <==> 100.0 * part >= t * whole
  {
    var q := part / whole;
    assert part == q * whole;
    if q * 100.0 >= t {
      assert 100.0 * part == (q * 100.0) * whole;
    } else {
      assert 100.0 * part == (q * 100.0) * whole;
    }
  }

  /**
   * A zero income, which onboarding accepts when nothing is spent, gives
   * NaN and infinite percentages: any expense or EMI then raises its warning,
   * and with nothing spent the positive message shows a NaN rate.
   */
  lemma ZeroIncome(p: UserProfile)
    requires p.income == 0.0 && p.expenses >= 0.0 && p.emi >= 0.0
    ensures
      var m := CalculateMetrics(Some(p)).value;
      && (HighExpenses(m.expenseRatio) in Insights(m) <==> p.expenses > 0.0)
      && (HighEmi(m.emiRatio) in Insights(m) <==> p.emi > 0.0)
      && ExcellentSavings !in Insights(m)
      && (p.expenses == 0.0 && p.emi == 0.0 ==> Insights(m) == [Saving(NotANumber)])
  {
  }

  /**
   * Income 10000, expenses 8000, no EMI: the positive message, the expense
   * warning and the excellent-savings message all show, and no EMI warning.
   */
  lemma ExampleInsights(p: UserProfile)
    requires p.income == 10000.0 && p.expenses == 8000.0 && p.emi == 0.0
    ensures
      var m := CalculateMetrics(Some(p)).value;
      Insights(m) == [Saving(Finite(20.0)), HighExpenses(Finite(80.0)), ExcellentSavings]
  {
    assert Round1(80.0) == 80.0;
    assert Round1(0.0) == 0.0;
    assert Round1(20.0) == 20.0;
  }
}

=== FILE: forms.dfy ===
/**
 * The six-field profile form shared by the onboarding and profile pages:
 * field edits, the JSON comparison behind "unsaved changes", and the
 * ordered, short-circuiting validation run on submit.
 */
module Forms {
  import opened Wrappers
  import JsText
  import JsNumber

  /**
   * A form field's value. Inputs always produce text; the profile page
   * also puts the stored numbers themselves into the form.
   */
  datatype Value = Str(text: string) | Num(number: real)

  datatype Field = Name | Income | Expenses | Emi | ShortTermGoals | LongTermGoals

  datatype Form = Form(
    name: string,
    income: Value,
    expenses: Value,
    emi: Value,
    shortTermGoals: string,
    longTermGoals: string)

  /** The initial state of both forms: every field empty. */
  const EmptyForm: Form := Form("", Str(""), Str(""), Str(""), "", "")

  /** `formData[k]`. */
  function Get(f: Form, k: Field): Value {
    match k
    case Name => Str(f.name)
    case Income => f.income
    case Expenses => f.expenses
    case Emi => f.emi
    case ShortTermGoals => Str(f.shortTermGoals)
    case LongTermGoals => Str(f.longTermGoals)
  }

  /** Two forms are equal exactly when they agree on every field. */
  lemma FormExtensionality(a: Form, b: Form)
    ensures a == b <==> forall k :: Get(a, k) == Get(b, k)
  {
    if forall k :: Get(a, k) == Get(b, k) {
      assert Get(a, Name) == Get(b, Name);
      assert Get(a, ShortTermGoals) == Get(b, ShortTermGoals);
      assert Get(a, LongTermGoals) == Get(b, LongTermGoals);
      assert Get(a, Income) == Get(b, Income);
      assert Get(a, Expenses) == Get(b, Expenses);
      assert Get(a, Emi) == Get(b, Emi);
    }
  }

  /** `{ ...prev, [k]: v }`: the input named `k` now holds the text `v`. */
  function SetField(f: Form, k: Field, v: string): (r: Form)
    ensures Get(r, k) == Str(v)
    ensures forall j :: j != k ==> Get(r, j) == Get(f, j)
  {
    match k
    case Name => f.(name := v)
    case Income => f.(income := Str(v))
    case Expenses => f.(expenses := Str(v))
    case Emi => f.(emi := Str(v))
    case ShortTermGoals => f.(shortTermGoals := v)
    case LongTermGoals => f.(longTermGoals := v)
  }

  /**
   * The field values in the key order every form object is built with,
   * which is what `JSON.stringify` lays out; a number and its text are
   * serialised differently.
   */
  function Entries(f: Form): seq<Value> {
    [Get(f, Name), Get(f, Income), Get(f, Expenses), Get(f, Emi),
     Get(f, ShortTermGoals), Get(f, LongTermGoals)]
  }

  /**
   * `JSON.stringify(formData) !== JSON.stringify(originalData)`; a missing
   * snapshot serialises as `null` and differs from every form.
   */
  function HasChanges(form: Form, snapshot: Option<Form>): (r: bool)
    ensures r <==> snapshot != Some(form)
  {
    match snapshot
    case None => true
    case Some(s) =>
      var r := Entries(form) != Entries(s);
      assert !r ==> forall i :: 0 <= i < 6 ==> Entries(form)[i] == Entries(s)[i];
      assert !r ==> form == s;
      r
  }

  /** A form differs from its snapshot exactly when some single field does. */
  lemma ChangedIffSomeFieldDiffers(form: Form, s: Form)
    ensures HasChanges(form, Some(s)) <==> exists k :: Get(form, k) != Get(s, k)
  {
    FormExtensionality(form, s);
  }

  /** Why a submission was refused, in the order the checks run. */
  datatype ValidationError = NameMissing | InvalidIncome | InvalidExpenses | InvalidEmi | Overspending

  /** The message each refusal shows. */
  function Message(e: ValidationError): string {
    match e
    case NameMissing => "Please enter your name"
    case InvalidIncome => "Please enter a valid income amount"
    case InvalidExpenses => "Please enter a valid expenses amount"
    case InvalidEmi => "Please enter a valid EMI amount"
    case Overspending => "Warning: Your expenses + EMI exceed your income!"
  }

  /** The normalised fields a valid submission writes. */
  datatype Validated = Validated(
    name: string,
    income: real,
    expenses: real,
    emi: real,
    shortTermGoals: string,
    longTermGoals: string)

  /** `parseFloat(v)`; a stored number parses to itself. `None` is NaN. */
  function AmountOf(v: Value): Option<real> {
    match v
    case Str(s) => JsNumber.ParseFloat(s)
    case Num(x) => Some(x)
  }

  /** `!(isNaN(x) || x < 0)`. */
  predicate ValidAmount(v: Value) {
    AmountOf(v).Some? && AmountOf(v).value >= 0.0
  }

  /** `expenses + emi > income`; with any amount NaN the comparison is false. */
  predicate Overspends(f: Form) {
    && AmountOf(f.income).Some? && AmountOf(f.expenses).Some? && AmountOf(f.emi).Some?
    && AmountOf(f.expenses).value + AmountOf(f.emi).value > AmountOf(f.income).value
  }

  /**
   * The submit-time validation of both pages: name, income, expenses, EMI,
   * and, on onboarding only (`checkOverspend`), the overspend check. The
   * first failing check is reported and the rest are not run.
   */
  function Validate(f: Form, checkOverspend: bool): (r: Result<Validated, ValidationError>)
    ensures r == Failure(NameMissing) <==> JsText.Blank(f.name)
    ensures r == Failure(InvalidIncome) <==> !JsText.Blank(f.name) && !ValidAmount(f.income)
    ensures r == Failure(InvalidExpenses) <==>
      !JsText.Blank(f.name) && ValidAmount(f.income) && !ValidAmount(f.expenses)
    ensures r == Failure(InvalidEmi) <==>
      !JsText.Blank(f.name) && ValidAmount(f.income) && ValidAmount(f.expenses) && !ValidAmount(f.emi)
    ensures r == Failure(Overspending) <==>
      && checkOverspend && !JsText.Blank(f.name)
      && ValidAmount(f.income) && ValidAmount(f.expenses) && ValidAmount(f.emi) && Overspends(f)
    ensures r.Success? <==>
      && !JsText.Blank(f.name) && ValidAmount(f.income) && ValidAmount(f.expenses) && ValidAmount(f.emi)
      && !(checkOverspend && Overspends(f))
    ensures r.Success? ==>
      && r.value.name == JsText.Trim(f.name) && r.value.name != []
      && Some(r.value.income) == AmountOf(f.income) && r.value.income >= 0.0
      && Some(r.value.expenses) == AmountOf(f.expenses) && r.value.expenses >= 0.0
      && Some(r.value.emi) == AmountOf(f.emi) && r.value.emi >= 0.0
      && (checkOverspend ==> r.value.expenses + r.value.emi <= r.value.income)
      && r.value.shortTermGoals == JsText.Trim(f.shortTermGoals)
      && r.value.longTermGoals == JsText.Trim(f.longTermGoals)
  {
    JsText.TrimEmptyIffBlank(f.name);
    if JsText.Trim(f.name) == [] then
      Failure(NameMissing)
    else
      var income := AmountOf(f.income);
      var expenses := AmountOf(f.expenses);
      var emi := AmountOf(f.emi);
      if income.None? || income.value < 0.0 then
        Failure(InvalidIncome)
      else if expenses.None? || expenses.value < 0.0 then
        Failure(InvalidExpenses)
      else if emi.None? || emi.value < 0.0 then
        Failure(InvalidEmi)
      else if checkOverspend && expenses.value + emi.value > income.value then
        Failure(Overspending)
      else
        Success(Validated(
          JsText.Trim(f.name), income.value, expenses.value, emi.value,
          JsText.Trim(f.shortTermGoals), JsText.Trim(f.longTermGoals)))
  }

  /** One check of the submit chain: whether it passes, and what it reports if not. */
  datatype Check = Check(passes: bool, error: ValidationError)

  /** The checks of the submit chain, listed in the order they run. */
  function Checks(f: Form, checkOverspend: bool): seq<Check> {
    [Check(!JsText.Blank(f.name), NameMissing),
     Check(ValidAmount(f.income), InvalidIncome),
     Check(ValidAmount(f.expenses), InvalidExpenses),
     Check(ValidAmount(f.emi), InvalidEmi)]
    + (if checkOverspend then [Check(!Overspends(f), Overspending)] else [])
  }

  /** The error of the first failing check, if any. */
  function FirstFailure(cs: seq<Check>): (r: Option<ValidationError>)
    ensures r.None? <==> forall i :: 0 <= i < |cs| ==> cs[i].passes
    ensures r.Some? ==> exists i :: 0 <= i < |cs| && !cs[i].passes && cs[i].error == r.value
                                    && forall j :: 0 <= j < i ==> cs[j].passes
  {
    if cs == [] then None
    else if !cs[0].passes then
      Some(cs[0].error)
    else
      var r := FirstFailure(cs[1..]);
      assert forall i :: 1 <= i < |cs| ==> cs[i] == cs[1..][i - 1];
      if r.Some? then
        var i :| 0 <= i < |cs[1..]| && !cs[1..][i].passes && cs[1..][i].error == r.value
                 && forall j :: 0 <= j < i ==> cs[1..][j].passes;
        assert forall j :: 0 <= j < i + 1 ==> cs[j].passes;
        r
      else
        r
  }

  /**
   * The nested `if`s of the submit handlers report exactly the first
   * failing check of the ordered list, and succeed when every check passes.
   */
  lemma ValidateReportsFirstFailure(f: Form, checkOverspend: bool)
    ensures Validate(f, checkOverspend).Failure? <==> FirstFailure(Checks(f, checkOverspend)).Some?
    ensures Validate(f, checkOverspend).Failure? ==>
      FirstFailure(Checks(f, checkOverspend)) == Some(Validate(f, checkOverspend).error)
  {
    var cs := Checks(f, checkOverspend);
    assert cs[0] == Check(!JsText.Blank(f.name), NameMissing);
    assert cs[1..][0] == cs[1];
    assert cs[1..][1..][0] == cs[2];
    assert cs[1..][1..][1..][0] == cs[3];
    if checkOverspend {
      var last := cs[1..][1..][1..][1..];
      assert last == [Check(!Overspends(f), Overspending)];
      assert last[1..] == [];
      assert FirstFailure(last) == if Overspends(f) then Some(Overspending) else None;
    } else {
      assert cs[1..][1..][1..][1..] == [];
    }
  }

  /**
   * The profile page runs the onboarding chain without its last check: any
   * earlier refusal is the same, and an overspending form is accepted there.
   */
  lemma ProfileChecksArePrefix(f: Form)
    ensures Validate(f, true) != Failure(Overspending) ==> Validate(f, false) == Validate(f, true)
    ensures Validate(f, true) == Failure(Overspending) ==>
      Validate(f, false).Success? && Overspends(f)
  {
  }
}

=== FILE: gemini.dfy ===
/**
 * The assistant client: the prompt built from the profile and the recent
 * turns, the request sent, the reply read out of the response, and the
 * API-key check.
 */
module Gemini {
  import opened Wrappers
  import opened Profiles
  import JsNumber

  datatype Role = User | Assistant

  /** One chat message; ids and timestamps are not modelled. */
  datatype Turn = Turn(role: Role, text: string, isError: bool)

  /** `toLocaleString()` on an amount: locale-dependent, so left abstract. */
  type AmountFormat = real -> string

  /** `goals || "Not specified"`. */
  function GoalOrDefault(goals: string): (t: string)
    ensures t != []
    ensures goals != [] ==> t == goals
    ensures goals == [] ==> t == "Not specified"
  {
    if goals == [] then "Not specified" else goals
  }

  /** The opening of the system context, up to the profile lines. */
  const Preamble: string :=
    "You are a professional and empathetic wealth management advisor specializing in personal finance for Indian users. Your goal is to provide practical, actionable financial advice.\n\n"
    + "User's Financial Profile:\n"

  /** The closing of the system context, after the profile lines. */
  const Guidelines: string :=
    "Guidelines:\n"
    + "1. Always reference their actual financial numbers when giving advice\n"
    + "2. Be encouraging and positive while being realistic\n"
    + "3. Provide specific, actionable steps they can take\n"
    + "4. Consider their goals when making recommendations\n"
    + "5. Use Indian financial context (INR, Indian investment options, tax laws)\n"
    + "6. Keep responses concise but comprehensive (200-300 words ideal)\n"
    + "7. Use emojis sparingly for friendliness\n\n"
    + "Now respond to their question with personalized advice based on their profile."

  /** The fixed system context with the profile filled in. */
  function SystemContext(p: UserProfile, fmt: AmountFormat): string {
    var savings := p.income - p.expenses - p.emi;
    var savingsRate := JsNumber.QuotientText(JsNumber.Percentage(savings, p.income));
    Preamble
    + "- Name: " + p.name + "\n"
    + "- Monthly Income: \U{20B9}" + fmt(p.income) + "\n"
    + "- Monthly Expenses: \U{20B9}" + fmt(p.expenses) + "\n"
    + "- Monthly EMI/Loans: \U{20B9}" + fmt(p.emi) + "\n"
    + "- Monthly Savings: \U{20B9}" + fmt(savings) + " (" + savingsRate + "% savings rate)\n"
    + "- Short-term Goals (1-3 years): " + GoalOrDefault(p.shortTermGoals) + "\n"
    + "- Long-term Goals (5+ years): " + GoalOrDefault(p.longTermGoals) + "\n\n"
    + Guidelines
  }

  /** How many past turns the prompt carries. */
  const HistoryWindow: nat := 5

  /** `chatHistory.slice(-5)`: the last five turns, or all of them when there are fewer. */
  function RecentHistory(history: seq<Turn>): (r: seq<Turn>)
    ensures |r| == if |history| < HistoryWindow then |history| else HistoryWindow
    ensures r == history[|history| - |r|..]
  {
    if |history| <= HistoryWindow then history else history[|history| - HistoryWindow..]
  }

  function Label(role: Role): string {
    if role == User then "User" else "Assistant"
  }

  /** One turn as a prompt line. */
  function HistoryLine(t: Turn): string {
    Label(t.role) + ": " + t.text + "\n\n"
  }

  /** The lines of `turns`, in order. */
  function HistoryText(turns: seq<Turn>): string {
    if turns == [] then "" else HistoryLine(turns[0]) + HistoryText(turns[1..])
  }

  /** The whole text sent for `message`. */
  function BuildPrompt(message: string, p: UserProfile, history: seq<Turn>, fmt: AmountFormat): string {
    SystemContext(p, fmt) + "\n\n" + HistoryText(RecentHistory(history))
    + "User: " + message + "\n\nAssistant:"
  }

  /** The request body: the prompt as the only part, and the fixed generation settings. */
  datatype Request = Request(
    text: string,
    temperature: real,
    topK: nat,
    topP: real,
    maxOutputTokens: nat)

  function RequestFor(prompt: string): (q: Request)
    ensures q.text == prompt
    ensures q.temperature == 0.7 && q.topK == 40 && q.topP == 0.95 && q.maxOutputTokens == 1024
  {
    Request(prompt, 0.7, 40, 0.95, 1024)
  }

  /** The parts of a response body the client reads; any may be missing. */
  datatype Part = Part(text: Option<string>)
  datatype Content = Content(parts: Option<seq<Part>>)
  datatype Candidate = Candidate(content: Option<Content>)
  datatype ResponseBody = ResponseBody(candidates: Option<seq<Candidate>>)

  /** A response: whether the status is 2xx, the status, and the decoded body. */
  datatype Response = Response(ok: bool, status: int, body: ResponseBody)

  /** `data.candidates[0]?.content?.parts?.[0]?.text`. */
  function FirstText(body: ResponseBody): Option<string> {
    match body.candidates
    case None => None
    case Some(cs) =>
      if cs == [] then None
      else match cs[0].content
        case None => None
        case Some(c) =>
          match c.parts
          case None => None
          case Some(ps) => if ps == [] then None else ps[0].text
  }

  /** Why no reply could be produced. */
  datatype AssistantError =
    | ApiError(status: int)  // a non-2xx status
    | InvalidFormat          // no non-empty first text in the body
    | MissingProfile         // no profile: reading its income throws

  /** The reply text, when the status is 2xx and the first text is present and non-empty. */
  function ExtractReply(resp: Response): (r: Result<string, AssistantError>)
    ensures !resp.ok ==> r == Failure(ApiError(resp.status))
    ensures r.Success? <==> resp.ok && FirstText(resp.body).Some? && FirstText(resp.body).value != []
    ensures r.Success? ==> Some(r.value) == FirstText(resp.body)
    ensures resp.ok && r.Failure? ==> r.error == InvalidFormat
  {
    if !resp.ok then Failure(ApiError(resp.status))
    else match FirstText(resp.body)
      case Some(t) => if t != [] then Success(t) else Failure(InvalidFormat)
      case None => Failure(InvalidFormat)
  }

  /** The response carrying `text` as the single candidate's single part. */
  function ReplyWith(text: string): Response {
    Response(true, 200, ResponseBody(Some([Candidate(Some(Content(Some([Part(Some(text))]))))])))
  }

  /** Reading back a well-shaped response gives its text unchanged; an empty text is invalid. */
  lemma ExtractReplyWith(text: string)
    ensures text != [] ==> ExtractReply(ReplyWith(text)) == Success(text)
    ensures text == [] ==> ExtractReply(ReplyWith(text)) == Failure(InvalidFormat)
  {
  }

  /** The HTTP call through `transport`, and the reply read from its response. */
  function Ask(prompt: string, transport: Request -> Response): (r: Result<string, AssistantError>)
    ensures r.Success? ==> r.value != []
    ensures r.Failure? ==> r.error != MissingProfile
    ensures
      var resp := transport(RequestFor(prompt));
      && (!resp.ok ==> r == Failure(ApiError(resp.status)))
      && (r.Success? <==> resp.ok && FirstText(resp.body).Some? && FirstText(resp.body).value != [])
      && (r.Success? ==> Some(r.value) == FirstText(resp.body))
      && (resp.ok && r.Failure? ==> r.error == InvalidFormat)
  {
    ExtractReply(transport(RequestFor(prompt)))
  }

  /**
   * `generateAIResponse`: build the prompt, send it through `transport`
   * (the HTTP call), and read the reply. Without a profile it throws first.
   */
  function GenerateResponse(
    message: string, profile: Option<UserProfile>, history: seq<Turn>,
    fmt: AmountFormat, transport: Request -> Response): (r: Result<string, AssistantError>)
    ensures r == Failure(MissingProfile) <==> profile.None?
    ensures r.Success? ==> r.value != []
    ensures profile.Some? ==>
      var resp := transport(RequestFor(BuildPrompt(message, profile.value, history, fmt)));
      && (!resp.ok ==> r == Failure(ApiError(resp.status)))
      && (r.Success? <==> resp.ok && FirstText(resp.body).Some? && FirstText(resp.body).value != [])
      && (r.Success? ==> Some(r.value) == FirstText(resp.body))
      && (resp.ok && r.Failure? ==> r.error == InvalidFormat)
  {
    match profile
    case None => Failure(MissingProfile)
    case Some(p) => Ask(BuildPrompt(message, p, history, fmt), transport)
  }

  /** `!!GEMINI_API_KEY && GEMINI_API_KEY !== "undefined"`; `None` is an unset variable. */
  function IsConfigured(key: Option<string>): (r: bool)
    ensures r ==> key.Some? && key.value != []
    ensures key.Some? && key.value != [] ==> (r <==> key.value != "undefined")
  {
    match key
    case None => false
    case Some(k) => k != "" && k != "undefined"
  }

  lemma {:induction false} HistoryTextAppend(a: seq<Turn>, b: seq<Turn>)
    ensures HistoryText(a + b) == HistoryText(a) + HistoryText(b)
    decreases |a|
  {
    if a == [] {
      assert a + b == b;
    } else {
      assert (a + b)[0] == a[0];
      assert (a + b)[1..] == a[1..] + b;
      HistoryTextAppend(a[1..], b);
    }
  }

  /** Each turn contributes its own labelled line, and the lines keep the turns' order. */
  lemma HistoryTextAt(turns: seq<Turn>, i: nat)
    requires i < |turns|
    ensures HistoryText(turns) == HistoryText(turns[..i]) + HistoryLine(turns[i]) + HistoryText(turns[i + 1..])
  {
    assert turns == turns[..i] + turns[i..];
    HistoryTextAppend(turns[..i], turns[i..]);
    assert turns[i..][1..] == turns[i + 1..];
  }

  /**
   * The prompt is the system context, a blank line, one line per turn of
   * the last min(5, |history|) turns in their order, then the new message
   * and the cue for the assistant.
   */
  lemma PromptLayout(message: string, p: UserProfile, history: seq<Turn>, fmt: AmountFormat)
    ensures
      var k := if |history| < 5 then |history| else 5;
      BuildPrompt(message, p, history, fmt)
      == SystemContext(p, fmt) + "\n\n" + HistoryText(history[|history| - k..])
         + "User: " + message + "\n\nAssistant:"
  {
    var k := if |history| < 5 then |history| else 5;
    assert RecentHistory(history) == history[|history| - k..];
  }

  /** Adding a turn slides the window: the oldest of five turns drops out. */
  lemma WindowSlides(history: seq<Turn>, t: Turn)
    ensures RecentHistory(history + [t]) == RecentHistory(RecentHistory(history) + [t])
  {
    var h := history + [t];
    if |history| >= HistoryWindow {
      assert h[|h| - HistoryWindow..] == (history[|history| - HistoryWindow..] + [t])[1..];
    }
  }
}

=== FILE: js_number.dfy ===
/**
 * The JavaScript number operations the application relies on, over exact
 * reals: `parseFloat` on form text, `toFixed(1)` on percentages, and the
 * results of dividing by a zero income.
 */
module JsNumber {
  import opened Wrappers
  import JsText

  predicate IsDigit(c: char) {
    '0' <= c <= '9'
  }

  predicate AllDigits(s: string) {
    forall i :: 0 <= i < |s| ==> IsDigit(s[i])
  }

  function DigitValue(c: char): nat
    requires IsDigit(c)
  {
    c as int - '0' as int
  }

  function DigitChar(d: nat): (c: char)
    requires d < 10
    ensures IsDigit(c) && DigitValue(c) == d
  {
    ('0' as int + d) as char
  }

  /** The index of the first non-digit of `s` at or after `i`, or `|s|`. */
  function DigitsEnd(s: string, i: nat): (k: nat)
    requires i <= |s|
    ensures i <= k <= |s|
    ensures forall j :: i <= j < k ==> IsDigit(s[j])
    ensures k == |s| || !IsDigit(s[k])
    decreases |s| - i
  {
    if i < |s| && IsDigit(s[i]) then DigitsEnd(s, i + 1) else i
  }

  /** The longest prefix of `s` made of decimal digits. */
  function DigitRun(s: string): (r: string)
    ensures |r| <= |s| && r == s[..|r|]
    ensures AllDigits(r)
    ensures |r| == |s| || !IsDigit(s[|r|])
  {
    s[..DigitsEnd(s, 0)]
  }

  /** The value of a decimal digit string, most significant digit first. */
  function DigitsValue(ds: string): nat
    requires AllDigits(ds)
  {
    if ds == [] then 0 else DigitsValue(ds[..|ds| - 1]) * 10 + DigitValue(ds[|ds| - 1])
  }

  function Pow10(n: nat): (r: nat)
    ensures r >= 1
  {
    if n == 0 then 1 else 10 * Pow10(n - 1)
  }

  /**
   * The exponent an `e`/`E` suffix contributes, or 0 when `tail` does not
   * begin with a complete exponent part (so "1e" and "1e+" read as 1).
   */
  function ExponentOf(tail: string): int {
    if tail != [] && (tail[0] == 'e' || tail[0] == 'E') then
      var u := tail[1..];
      var v := if u != [] && (u[0] == '-' || u[0] == '+') then u[1..] else u;
      var ds := DigitRun(v);
      if ds == [] then 0
      else if u[0] == '-' then 0 - DigitsValue(ds)
      else DigitsValue(ds)
    else
      0
  }

  /** The value of `whole.frac` as decimal digits. */
  function DecimalValue(whole: string, frac: string): (r: real)
    requires AllDigits(whole) && AllDigits(frac)
    ensures r >= 0.0
  {
    DigitsValue(whole) as real + DigitsValue(frac) as real / Pow10(|frac|) as real
  }

  /** `m` times ten to the power `e`. */
  function Scaled(m: real, e: int): (r: real)
    requires m >= 0.0
    ensures r >= 0.0
  {
    if e >= 0 then m * Pow10(e) as real else m / Pow10(-e) as real
  }

  /**
   * The longest unsigned decimal literal at the start of `u` (digits,
   * optional fraction, optional exponent), or `None` when `u` does not start
   * with a digit or with a point followed by a digit.
   */
  function UnsignedPrefix(u: string): (r: Option<real>)
    ensures r.Some? ==> r.value >= 0.0
    ensures r.Some? ==> u != [] && (IsDigit(u[0]) || (|u| > 1 && IsDigit(u[1])))
  {
    var whole := DigitRun(u);
    var rest := u[|whole|..];
    var hasPoint := rest != [] && rest[0] == '.';
    var frac := if hasPoint then DigitRun(rest[1..]) else [];
    if whole == [] && frac == [] then
      None
    else
      var tail := if hasPoint then rest[1 + |frac|..] else rest;
      assert whole != [] ==> whole[0] == u[0];
      assert whole == [] ==> rest == u && frac[0] == u[1];
      Some(Scaled(DecimalValue(whole, frac), ExponentOf(tail)))
  }

  /** Some character of `s` is a decimal digit. */
  predicate HasDigit(s: string) {
    exists i :: 0 <= i < |s| && IsDigit(s[i])
  }

  /** `t` after its sign character, if it starts with one. */
  function AfterSign(t: string): (u: string)
    ensures u == t || (t != [] && (t[0] == '-' || t[0] == '+') && u == t[1..])
  {
    if t != [] && (t[0] == '-' || t[0] == '+') then t[1..] else t
  }

  /** `t` starts with a minus sign. */
  predicate Minus(t: string) {
    t != [] && t[0] == '-'
  }

  /** The literal's value with the sign applied. */
  function ApplySign(negative: bool, literal: Option<real>): Option<real> {
    match literal
    case None => None
    case Some(m) => Some(Signed(negative, m))
  }

  /** An optional sign followed by an unsigned decimal literal. */
  function SignedPrefix(t: string): Option<real> {
    ApplySign(Minus(t), UnsignedPrefix(AfterSign(t)))
  }

  /**
   * `parseFloat`: skip leading whitespace and an optional sign, then read
   * the longest decimal literal and ignore what follows. `None` stands for NaN.
   */
  function ParseFloat(s: string): Option<real> {
    SignedPrefix(JsText.TrimStart(s))
  }

  /** A signed literal contains a digit, and only a minus sign makes it negative. */
  lemma SignedPrefixShape(t: string)
    ensures SignedPrefix(t).Some? ==> HasDigit(t)
    ensures SignedPrefix(t).Some? && SignedPrefix(t).value < 0.0 ==> t[0] == '-'
  {
    var u := AfterSign(t);
    if UnsignedPrefix(u).Some? {
      assert IsDigit(u[0]) ==> IsDigit(t[|t| - |u|]);
      assert !IsDigit(u[0]) ==> IsDigit(t[|t| - |u| + 1]);
    }
  }

  /**
   * Text without a single digit is NaN, and a negative result comes only
   * from a minus sign after the leading whitespace.
   */
  lemma ParseFloatShape(s: string)
    ensures !HasDigit(s) ==> ParseFloat(s) == None
    ensures ParseFloat(s).Some? && ParseFloat(s).value < 0.0 ==> JsText.TrimStart(s)[0] == '-'
  {
    var t := JsText.TrimStart(s);
    SignedPrefixShape(t);
    if SignedPrefix(t).Some? {
      var i :| 0 <= i < |t| && IsDigit(t[i]);
      assert t[i] == s[|s| - |t| + i];
    }
  }

  /** Decimal text of a natural number, without leading zeros. */
  function NatText(n: nat): (r: string)
    ensures r != [] && AllDigits(r)
    ensures DigitsValue(r) == n
  {
    var d := DigitChar(n % 10);
    if n < 10 then
      assert [d][..0] == [];
      [d]
    else
      var r := NatText(n / 10) + [d];
      assert r[..|r| - 1] == NatText(n / 10);
      r
  }

  /** Number of tenths nearest to `m`, halves rounded up. */
  function Tenths(m: real): (n: nat)
    requires m >= 0.0
    ensures n as real <= 10.0 * m + 0.5 < n as real + 1.0
  {
    (10.0 * m + 0.5).Floor
  }

  /**
   * The whole number of tenths `x.toFixed(1)` keeps: the nearest one, ties
   * rounded away from zero (toFixed rounds the magnitude and prefixes the sign).
   */
  function SignedTenths(x: real): (k: int)
    ensures -0.5 <= k as real - 10.0 * x <= 0.5
    ensures (x >= 0.0 ==> k >= 0) && (x <= 0.0 ==> k <= 0)
  {
    if x < 0.0 then 0 - Tenths(-x) else Tenths(x)
  }

  /** `|x|`. */
  function Magnitude(x: real): (m: real)
    ensures m >= 0.0 && (m == x || m == -x)
  {
    if x < 0.0 then -x else x
  }

  /** `v` with a minus sign put in front when `negative`. */
  function Signed(negative: bool, v: real): real {
    if negative then -v else v
  }

  /** The value `x.toFixed(1)` denotes: a whole number of tenths within 0.05 of `x`. */
  function Round1(x: real): (r: real)
    ensures r == SignedTenths(x) as real / 10.0
    ensures -0.05 <= r - x <= 0.05
    ensures (x >= 0.0 ==> r >= 0.0) && (x <= 0.0 ==> r <= 0.0)
  {
    var n := Tenths(Magnitude(x));
    assert x < 0.0 ==> (0 - n) as real == -(n as real);
    Signed(x < 0.0, n as real / 10.0)
  }

  /** `n` tenths written with one decimal place. */
  function TenthsText(n: nat): string {
    NatText(n / 10) + "." + [DigitChar(n % 10)]
  }

  /** The text `x.toFixed(1)` produces for a finite `x`: the sign, then the magnitude's tenths. */
  function ToFixed1(x: real): string {
    SignText(x < 0.0) + TenthsText(Tenths(Magnitude(x)))
  }

  /** The minus sign `toFixed` prefixes to a negative number. */
  function SignText(negative: bool): string {
    if negative then "-" else ""
  }

  /** A JavaScript number produced by a division: finite, infinite, or NaN. */
  datatype Quotient = Finite(value: real) | PosInfinity | NegInfinity | NotANumber

  /** `(part / whole) * 100` as JavaScript evaluates it, division by zero included. */
  function Percentage(part: real, whole: real): (q: Quotient)
    ensures q.Finite? <==> whole != 0.0
    ensures q.Finite? ==> q.value * whole == 100.0 * part
    ensures q == PosInfinity <==> whole == 0.0 && part > 0.0
    ensures q == NegInfinity <==> whole == 0.0 && part < 0.0
  {
    if whole != 0.0 then Finite(part / whole * 100.0)
    else if part > 0.0 then PosInfinity
    else if part < 0.0 then NegInfinity
    else NotANumber
  }

  /** The text `q.toFixed(1)` produces. */
  function QuotientText(q: Quotient): string {
    match q
    case Finite(v) => ToFixed1(v)
    case PosInfinity => "Infinity"
    case NegInfinity => "-Infinity"
    case NotANumber => "NaN"
  }

  /** `q.toFixed(1) > bound`: the text is converted back to a number, and NaN compares false. */
  predicate FixedAbove(q: Quotient, bound: real) {
    match q
    case Finite(v) => Round1(v) > bound
    case PosInfinity => true
    case NegInfinity => false
    case NotANumber => false
  }

  /** `q.toFixed(1) >= bound`, with the same conversion. */
  predicate FixedAtLeast(q: Quotient, bound: real) {
    match q
    case Finite(v) => Round1(v) >= bound
    case PosInfinity => true
    case NegInfinity => false
    case NotANumber => false
  }

  /** The scan over digits stops exactly at the end of a digit run. */
  lemma {:induction false} DigitsEndAt(s: string, i: nat, k: nat)
    requires i <= k <= |s|
    requires forall j :: i <= j < k ==> IsDigit(s[j])
    requires k == |s| || !IsDigit(s[k])
    ensures DigitsEnd(s, i) == k
    decreases k - i
  {
    if i < k {
      DigitsEndAt(s, i + 1, k);
    }
  }

  lemma DigitRunStopsAtNonDigit(ds: string, rest: string)
    requires AllDigits(ds)
    requires rest == [] || !IsDigit(rest[0])
    ensures DigitRun(ds + rest) == ds
  {
    var s := ds + rest;
    assert forall j :: 0 <= j < |ds| ==> s[j] == ds[j];
    assert |ds| < |s| ==> s[|ds|] == rest[0];
    DigitsEndAt(s, 0, |ds|);
    assert s[..|ds|] == ds;
  }

  lemma TrimStartSkipsBlank(w: string, s: string)
    requires JsText.Blank(w)
    ensures JsText.TrimStart(w + s) == JsText.TrimStart(s)
  {
    var ws := w + s;
    var k := JsText.SkipForward(s, 0);
    assert forall j :: 0 <= j < |w| ==> ws[j] == w[j];
    assert forall j :: |w| <= j < |ws| ==> ws[j] == s[j - |w|];
    JsText.SkipForwardAt(ws, 0, |w| + k);
    assert ws[|w| + k..] == s[k..];
  }

  /** `parseFloat` ignores leading whitespace. */
  lemma ParseFloatSkipsBlank(w: string, s: string)
    requires JsText.Blank(w)
    ensures ParseFloat(w + s) == ParseFloat(s)
  {
    TrimStartSkipsBlank(w, s);
  }

  lemma UnsignedPrefixOfNatText(n: nat)
    ensures UnsignedPrefix(NatText(n)) == Some(n as real)
  {
    var t := NatText(n);
    DigitRunStopsAtNonDigit(t, []);
    assert t + [] == t;
    assert t[|t|..] == [];
  }

  /** `parseFloat` reads back the decimal text of every natural number. */
  lemma ParseFloatOfNatText(n: nat)
    ensures ParseFloat(NatText(n)) == Some(n as real)
  {
    UnsignedPrefixOfNatText(n);
    assert IsDigit(NatText(n)[0]);
    ParseFloatOfDigits(NatText(n));
  }

  lemma TenthsSplit(n: nat)
    ensures (n / 10) as real + (n % 10) as real / 10.0 == n as real / 10.0
  {
    var q, d := n / 10, n % 10;
    assert n == 10 * q + d;
    assert n as real == 10.0 * q as real + d as real;
  }

  /** The digit run of `w.c` stops at the point. */
  lemma DigitRunOfPointDigit(w: string, c: char)
    requires AllDigits(w) && IsDigit(c)
    ensures DigitRun(w + "." + [c]) == w
    ensures (w + "." + [c])[|w|..] == "." + [c]
  {
    assert w + "." + [c] == w + ("." + [c]);
    DigitRunStopsAtNonDigit(w, "." + [c]);
  }

  /** A single fraction digit is worth a tenth of its value. */
  lemma DecimalValueOneDigit(w: string, c: char)
    requires AllDigits(w) && IsDigit(c)
    ensures DecimalValue(w, [c]) == DigitsValue(w) as real + DigitValue(c) as real / 10.0
  {
    assert [c][..0] == [];
    assert DigitsValue([c]) == DigitValue(c);
    assert Pow10(1) == 10;
  }

  /** The unsigned literal `w.c`, with one fraction digit and no exponent. */
  lemma UnsignedPrefixOfPointDigit(w: string, c: char)
    requires w != [] && AllDigits(w) && IsDigit(c)
    ensures UnsignedPrefix(w + "." + [c]) == Some(DecimalValue(w, [c]))
  {
    var u := w + "." + [c];
    DigitRunOfPointDigit(w, c);
    var rest := u[|w|..];
    assert rest[1..] == [c];
    DigitRunStopsAtNonDigit([c], []);
    assert [c] + [] == [c];
    assert rest[2..] == [];
    assert ExponentOf([]) == 0;
    assert Scaled(DecimalValue(w, [c]), 0) == DecimalValue(w, [c]);
  }

  lemma UnsignedPrefixOfFixed(n: nat)
    ensures UnsignedPrefix(TenthsText(n)) == Some(n as real / 10.0)
    ensures TenthsText(n) != [] && IsDigit(TenthsText(n)[0])
  {
    var w := NatText(n / 10);
    var c := DigitChar(n % 10);
    UnsignedPrefixOfPointDigit(w, c);
    DecimalValueOneDigit(w, c);
    TenthsSplit(n);
  }

  lemma ParseFloatOfTrimmed(t: string)
    requires JsText.TrimStart(t) == t
    ensures ParseFloat(t) == SignedPrefix(t)
  {
  }

  /** Text that starts with a digit or a sign has no leading whitespace. */
  lemma NothingToSkip(t: string)
    requires t != [] && (IsDigit(t[0]) || t[0] == '-')
    ensures JsText.TrimStart(t) == t
  {
    assert JsText.SkipForward(t, 0) == 0;
    assert t[0..] == t;
  }

  /** Unsigned text parses as its unsigned literal. */
  lemma ParseFloatOfDigits(u: string)
    requires u != [] && IsDigit(u[0])
    ensures ParseFloat(u) == UnsignedPrefix(u)
  {
    NothingToSkip(u);
    ParseFloatOfTrimmed(u);
  }

  /** `parseFloat` reads back exactly the rounded value `toFixed(1)` printed. */
  lemma ParseFloatOfToFixed1(x: real)
    ensures ParseFloat(ToFixed1(x)) == Some(Round1(x))
  {
    var n := Tenths(Magnitude(x));
    UnsignedPrefixOfFixed(n);
    ParseFloatOfSignedDigits(x < 0.0, TenthsText(n), n as real / 10.0);
  }

  /** Digits, optionally preceded by a minus sign, parse as the signed literal. */
  lemma ParseFloatOfSignedDigits(negative: bool, u: string, v: real)
    requires u != [] && IsDigit(u[0]) && UnsignedPrefix(u) == Some(v)
    ensures ParseFloat(SignText(negative) + u) == Some(Signed(negative, v))
  {
    var t := SignText(negative) + u;
    SignedPrefixOfSigned(negative, u, v);
    NothingToSkip(t);
    ParseFloatOfTrimmed(t);
  }

  /** A sign prefix keeps the text free of leading whitespace and negates the literal. */
  lemma SignedPrefixOfSigned(negative: bool, u: string, v: real)
    requires u != [] && IsDigit(u[0]) && UnsignedPrefix(u) == Some(v)
    ensures SignText(negative) + u != []
    ensures IsDigit((SignText(negative) + u)[0]) || (SignText(negative) + u)[0] == '-'
    ensures SignedPrefix(SignText(negative) + u) == Some(Signed(negative, v))
  {
    var t := SignText(negative) + u;
    SignOfSigned(negative, u);
    assert UnsignedPrefix(AfterSign(t)) == Some(v);
  }

  /** The sign `toFixed` writes is read back by `parseFloat`, and what follows it is `u`. */
  lemma SignOfSigned(negative: bool, u: string)
    requires u != [] && IsDigit(u[0])
    ensures SignText(negative) + u != []
    ensures IsDigit((SignText(negative) + u)[0]) || (SignText(negative) + u)[0] == '-'
    ensures Minus(SignText(negative) + u) == negative
    ensures AfterSign(SignText(negative) + u) == u
  {
    var t := SignText(negative) + u;
    if negative {
      assert t[0] == '-' && t[1..] == u;
    } else {
      assert t == u;
    }
  }

  /** `x.toFixed(1) > m/10` holds exactly when `x` is at least halfway past `m/10`. */
  lemma Round1Above(x: real, m: nat)
    ensures Round1(x) > m as real / 10.0 <==> 10.0 * x >= m as real + 0.5
  {
    var k := SignedTenths(x);
    assert Round1(x) > m as real / 10.0 <==> k > m;
    if x >= 0.0 {
      assert k == Tenths(x);
    }
  }

  /** `x.toFixed(1) >= m/10` holds exactly when `x` is at most halfway short of `m/10`. */
  lemma Round1AtLeast(x: real, m: nat)
    requires m >= 1
    ensures Round1(x) >= m as real / 10.0 <==> 10.0 * x >= m as real - 0.5
  {
    var k := SignedTenths(x);
    assert Round1(x) >= m as real / 10.0 <==> k >= m;
    if x >= 0.0 {
      assert k == Tenths(x);
    }
  }
}

=== FILE: js_text.dfy ===
/**
 * JavaScript's `String.prototype.trim` and the blank-string test `!s.trim()`
 * used by every form of the application.
 */
module JsText {

  /** WhiteSpace and LineTerminator code points of ECMA-262: the characters `trim` removes. */
  predicate IsWhitespace(c: char) {
    || c == '\t' || c == '\n' || c == '\U{000B}' || c == '\U{000C}' || c == '\r' || c == ' '
    || c == '\U{00A0}' || c == '\U{1680}' || ('\U{2000}' <= c <= '\U{200A}')
    || c == '\U{2028}' || c == '\U{2029}' || c == '\U{202F}' || c == '\U{205F}'
    || c == '\U{3000}' || c == '\U{FEFF}'
  }

  /** Every character of `s` is whitespace (the empty string included). */
  predicate Blank(s: string) {
    forall i :: 0 <= i < |s| ==> IsWhitespace(s[i])
  }

  /** Every character of `s` from index `i` up to index `j` is whitespace. */
  predicate BlankBetween(s: string, i: nat, j: nat)
    requires i <= j <= |s|
  {
    forall k :: i <= k < j ==> IsWhitespace(s[k])
  }

  /** The index of the first non-whitespace character of `s` at or after `i`, or `|s|`. */
  function SkipForward(s: string, i: nat): (k: nat)
    requires i <= |s|
    ensures i <= k <= |s| && BlankBetween(s, i, k)
    ensures k == |s| || !IsWhitespace(s[k])
    decreases |s| - i
  {
    if i < |s| && IsWhitespace(s[i]) then SkipForward(s, i + 1) else i
  }

  /** The index just past the last non-whitespace character of `s` before `j`, or 0. */
  function SkipBackward(s: string, j: nat): (k: nat)
    requires j <= |s|
    ensures k <= j && BlankBetween(s, k, j)
    ensures k == 0 || !IsWhitespace(s[k - 1])
  {
    if j > 0 && IsWhitespace(s[j - 1]) then SkipBackward(s, j - 1) else j
  }

  /** Drops leading whitespace (also the first step of `parseFloat`). */
  function TrimStart(s: string): string {
    s[SkipForward(s, 0)..]
  }

  /** Drops trailing whitespace. */
  function TrimEnd(s: string): string {
    s[..SkipBackward(s, |s|)]
  }

  /** `String.prototype.trim`. */
  function Trim(s: string): string {
    TrimEnd(TrimStart(s))
  }

  /** `r` is `s` with `lead` whitespace characters before it and only whitespace after it. */
  ghost predicate Padding(s: string, lead: nat, r: string) {
    && lead + |r| <= |s|
    && s[lead..lead + |r|] == r
    && Blank(s[..lead])
    && Blank(s[lead + |r|..])
  }

  /** Neither end of `r` is whitespace. */
  predicate Tight(r: string) {
    r == [] || (!IsWhitespace(r[0]) && !IsWhitespace(r[|r| - 1]))
  }

  /** The scan forward stops at the only place it can: after a whitespace run, before a non-whitespace character. */
  lemma {:induction false} SkipForwardAt(s: string, i: nat, k: nat)
    requires i <= k <= |s| && BlankBetween(s, i, k)
    requires k == |s| || !IsWhitespace(s[k])
    ensures SkipForward(s, i) == k
    decreases k - i
  {
    if i < k {
      SkipForwardAt(s, i + 1, k);
    }
  }

  /** The scan backward stops at the only place it can. */
  lemma {:induction false} SkipBackwardAt(s: string, j: nat, k: nat)
    requires k <= j <= |s| && BlankBetween(s, k, j)
    requires k == 0 || !IsWhitespace(s[k - 1])
    ensures SkipBackward(s, j) == k
    decreases j - k
  {
    if k < j {
      SkipBackwardAt(s, j - 1, k);
    }
  }

  /** `trim` leaves a string with no whitespace at either end, cut out of `s` between whitespace only. */
  lemma TrimShape(s: string)
    ensures Tight(Trim(s))
    ensures Padding(s, SkipForward(s, 0), Trim(s))
  {
    var k := SkipForward(s, 0);
    var t := s[k..];
    var e := SkipBackward(t, |t|);
    var r := t[..e];
    assert r == Trim(s);
    assert r != [] ==> r[0] == s[k] && r[|r| - 1] == t[e - 1];
    assert s[k..k + |r|] == r;
    var head, tail := s[..k], s[k + |r|..];
    assert forall i :: 0 <= i < |head| ==> head[i] == s[i];
    assert forall i :: 0 <= i < |tail| ==> tail[i] == t[e + i];
  }

  lemma TrimStartPadded(a: string, m: string)
    requires Blank(a)
    requires m == [] || !IsWhitespace(m[0])
    ensures TrimStart(a + m) == m
  {
    var s := a + m;
    assert forall i :: 0 <= i < |a| ==> s[i] == a[i];
    assert |a| < |s| ==> s[|a|] == m[0];
    SkipForwardAt(s, 0, |a|);
    assert s[|a|..] == m;
  }

  lemma TrimEndPadded(m: string, b: string)
    requires Blank(b)
    requires m == [] || !IsWhitespace(m[|m| - 1])
    ensures TrimEnd(m + b) == m
  {
    var s := m + b;
    assert forall i :: |m| <= i < |s| ==> s[i] == b[i - |m|];
    assert |m| > 0 ==> s[|m| - 1] == m[|m| - 1];
    SkipBackwardAt(s, |s|, |m|);
    assert s[..|m|] == m;
  }

  /**
   * Reference characterisation of `trim`: whatever the whitespace around a
   * string that starts and ends with non-whitespace, trimming gives it back.
   */
  lemma TrimOfPadded(a: string, m: string, b: string)
    requires Blank(a) && Blank(b) && Tight(m)
    ensures Trim(a + m + b) == m
  {
    if m == [] {
      assert a + m + b == a + b;
      assert Blank(a + b);
      BlankTrimsToEmpty(a + b);
    } else {
      assert a + m + b == a + (m + b);
      TrimStartPadded(a, m + b);
      TrimEndPadded(m, b);
    }
  }

  lemma BlankTrimsToEmpty(s: string)
    requires Blank(s)
    ensures TrimStart(s) == []
    ensures Trim(s) == []
  {
    SkipForwardAt(s, 0, |s|);
  }

  lemma EmptyTrimMeansBlank(s: string)
    requires Trim(s) == []
    ensures Blank(s)
  {
    var k := SkipForward(s, 0);
    var t := s[k..];
    assert SkipBackward(t, |t|) == 0;
    assert Blank(t);
    BlankAround(s, k);
  }

  /** Whitespace up to index `k` followed by a blank rest is blank. */
  lemma BlankAround(s: string, k: nat)
    requires k <= |s| && BlankBetween(s, 0, k) && Blank(s[k..])
    ensures Blank(s)
  {
    assert forall i :: k <= i < |s| ==> s[i] == s[k..][i - k];
  }

  /** A string trims to nothing exactly when it is blank. */
  lemma TrimEmptyIffBlank(s: string)
    ensures Trim(s) == [] <==> Blank(s)
  {
    if Blank(s) {
      BlankTrimsToEmpty(s);
    } else if Trim(s) == [] {
      EmptyTrimMeansBlank(s);
    }
  }

  /** Trimming twice is trimming once. */
  lemma TrimIdempotent(s: string)
    ensures Trim(Trim(s)) == Trim(s)
  {
    var r := Trim(s);
    TrimShape(s);
    assert [] + r + [] == r;
    TrimOfPadded([], r, []);
  }
}

=== FILE: onboarding.dfy ===
/**
 * The onboarding page: one form, validated on submit with the overspend
 * check, written to the store, then a redirect to the dashboard.
 */
module Onboarding {
  import opened Wrappers
  import opened Forms
  import opened Profiles
  import JsText
  import JsNumber

  /** Page state: the form, the error shown, whether a save is in flight, whether it redirected. */
  datatype Page = Page(form: Form, error: string, loading: bool, redirected: bool)

  const Initial: Page := Page(EmptyForm, "", false, false)

  const SaveFailedMessage: string := "Failed to save profile. Please try again."

  /** `handleChange`: only the edited field changes; an error on display stays. */
  function Change(p: Page, k: Field, v: string): (r: Page)
    ensures Get(r.form, k) == Str(v)
    ensures forall j :: j != k ==> Get(r.form, j) == Get(p.form, j)
    ensures r.error == p.error && r.loading == p.loading && r.redirected == p.redirected
  {
    p.(form := SetField(p.form, k, v))
  }

  /** The document written for a valid form and the signed-in user's email. */
  function Record(v: Validated, email: string): UserProfile {
    UserProfile(v.name, email, v.income, v.expenses, v.emi, v.shortTermGoals, v.longTermGoals)
  }

  /** First half of `handleSubmit`: refuse with a message, or start saving a record. */
  datatype Step = Refused(page: Page) | Saving(page: Page, record: UserProfile)

  function BeginSubmit(p: Page, email: string): (r: Step)
    ensures r.Refused? <==> Validate(p.form, true).Failure?
    ensures r.Refused? ==> r.page == p.(error := Message(Validate(p.form, true).error))
    ensures r.Saving? ==>
      && r.page == p.(error := "", loading := true)
      && r.record == Record(Validate(p.form, true).value, email)
  {
    match Validate(p.form, true)
    case Failure(e) => Refused(p.(error := Message(e)))
    case Success(v) => Saving(p.(error := "", loading := true), Record(v, email))
  }

  /** Second half: the store call succeeded (redirect) or threw (message); `loading` ends false. */
  function FinishSubmit(p: Page, saved: bool): (r: Page)
    ensures !r.loading && r.form == p.form
    ensures r.redirected <==> saved || p.redirected
    ensures r.error == (if saved then p.error else SaveFailedMessage)
  {
    if saved then p.(redirected := true, loading := false)
    else p.(error := SaveFailedMessage, loading := false)
  }

  /** The page after a whole submission, and the record written, if one was. */
  datatype Outcome = Outcome(page: Page, written: Option<UserProfile>)

  /** `handleSubmit`, with the store's answer given as `saved`. */
  function Submit(p: Page, email: string, saved: bool): (r: Outcome)
    ensures r.written.Some? <==> Validate(p.form, true).Success?
    ensures r.written.None? ==>
      r.page == p.(error := Message(Validate(p.form, true).error))
    ensures r.written.Some? ==>
      && WellFormed(r.written.value)
      && r.written.value.email == email
      && r.written.value.name == JsText.Trim(p.form.name)
      && r.written.value.shortTermGoals == JsText.Trim(p.form.shortTermGoals)
      && r.written.value.longTermGoals == JsText.Trim(p.form.longTermGoals)
      && Some(r.written.value.income) == AmountOf(p.form.income)
      && Some(r.written.value.expenses) == AmountOf(p.form.expenses)
      && Some(r.written.value.emi) == AmountOf(p.form.emi)
      && r.written.value.expenses + r.written.value.emi <= r.written.value.income
      && r.page.form == p.form && !r.page.loading
      && (saved ==> r.page.redirected && r.page.error == "")
      && (!saved ==> r.page.error == SaveFailedMessage && r.page.redirected == p.redirected)
  {
    match BeginSubmit(p, email)
    case Refused(q) => Outcome(q, None)
    case Saving(q, record) =>
      JsText.TrimIdempotent(p.form.name);
      JsText.TrimIdempotent(p.form.shortTermGoals);
      JsText.TrimIdempotent(p.form.longTermGoals);
      Outcome(FinishSubmit(q, saved), Some(record))
  }

  /** A blank name is refused with its own message whatever the other fields hold. */
  lemma BlankNameAlwaysRefused(p: Page, email: string, saved: bool)
    requires JsText.Blank(p.form.name)
    ensures Submit(p, email, saved).written == None
    ensures Submit(p, email, saved).page.error == "Please enter your name"
    ensures !Submit(p, email, saved).page.redirected || p.redirected
  {
  }

  /**
   * Spending more than the income blocks the submission, while spending it
   * exactly is accepted.
   */
  lemma OverspendBlocksButEqualityPasses(p: Page, email: string, saved: bool)
    requires !JsText.Blank(p.form.name)
    requires ValidAmount(p.form.income) && ValidAmount(p.form.expenses) && ValidAmount(p.form.emi)
    ensures Overspends(p.form) ==>
      && Submit(p, email, saved).written == None
      && Submit(p, email, saved).page.error == "Warning: Your expenses + EMI exceed your income!"
    ensures AmountOf(p.form.expenses).value + AmountOf(p.form.emi).value == AmountOf(p.form.income).value ==>
      Submit(p, email, saved).written.Some?
  {
  }

  /** An income typed as "abc" is refused with the income message and nothing is written. */
  lemma TextIncomeRefused(p: Page, email: string, saved: bool)
    requires !JsText.Blank(p.form.name) && p.form.income == Str("abc")
    ensures Submit(p, email, saved).written == None
    ensures Submit(p, email, saved).page.error == "Please enter a valid income amount"
  {
    assert !JsNumber.HasDigit("abc") by {
      assert forall i :: 0 <= i < 3 ==> "abc"[i] in {'a', 'b', 'c'};
    }
    JsNumber.ParseFloatShape("abc");
  }

  /**
   * Whole amounts typed as decimal text whose expenses and EMI add up to more
   * than the income (50000 against 40000 + 20000, say) are refused as overspending.
   */
  lemma DecimalOverspendRefused(p: Page, email: string, saved: bool, income: nat, expenses: nat, emi: nat)
    requires !JsText.Blank(p.form.name)
    requires p.form.income == Str(JsNumber.NatText(income))
    requires p.form.expenses == Str(JsNumber.NatText(expenses))
    requires p.form.emi == Str(JsNumber.NatText(emi))
    requires expenses + emi > income
    ensures Submit(p, email, saved).written == None
    ensures Submit(p, email, saved).page.error == Message(Overspending)
  {
    JsNumber.ParseFloatOfNatText(income);
    JsNumber.ParseFloatOfNatText(expenses);
    JsNumber.ParseFloatOfNatText(emi);
  }
}

=== FILE: profile_page.dfy ===
/**
 * The profile page: the stored profile is loaded into the form and kept as
 * a snapshot; Save and Reset are enabled only while the form differs from
 * the snapshot; a successful save makes the submitted form the new snapshot.
 */
module ProfilePage {
  import opened Wrappers
  import opened Forms
  import opened Profiles
  import JsText
  import JsNumber

  /** Page state: form, snapshot of the last loaded or saved form, flags and messages. */
  datatype Page = Page(
    form: Form,
    snapshot: Option<Form>,
    loading: bool,
    saving: bool,
    error: string,
    success: string)

  const Initial: Page := Page(EmptyForm, None, true, false, "", "")

  const LoadFailedMessage: string := "Failed to load profile"
  const SaveFailedMessage: string := "Failed to update profile. Please try again."
  const SavedMessage: string := "Profile updated successfully! \U{1F389}"

  /**
   * The form built from a stored profile as written: `field || ''`, so a
   * stored amount of 0, being falsy, becomes the empty text.
   */
  function LoadedFormAsWritten(p: UserProfile): (f: Form)
    ensures f.name == p.name && f.shortTermGoals == p.shortTermGoals && f.longTermGoals == p.longTermGoals
    ensures AmountOf(f.income) == (if p.income == 0.0 then None else Some(p.income))
    ensures AmountOf(f.expenses) == (if p.expenses == 0.0 then None else Some(p.expenses))
    ensures AmountOf(f.emi) == (if p.emi == 0.0 then None else Some(p.emi))
  {
    Form(
      p.name,
      if p.income == 0.0 then Str("") else Num(p.income),
      if p.expenses == 0.0 then Str("") else Num(p.expenses),
      if p.emi == 0.0 then Str("") else Num(p.emi),
      p.shortTermGoals,
      p.longTermGoals)
  }

  /**
   * The form built from a stored profile, defaulting only what is missing
   * (`field ?? ''`): every stored amount, 0 included, is kept.
   */
  function LoadedForm(p: UserProfile): (f: Form)
    ensures f.name == p.name && f.shortTermGoals == p.shortTermGoals && f.longTermGoals == p.longTermGoals
    ensures AmountOf(f.income) == Some(p.income)
    ensures AmountOf(f.expenses) == Some(p.expenses)
    ensures AmountOf(f.emi) == Some(p.emi)
  {
    Form(p.name, Num(p.income), Num(p.expenses), Num(p.emi), p.shortTermGoals, p.longTermGoals)
  }

  /**
   * The fetch on mount: a found profile fills the form and the snapshot with
   * the same value, each field `|| ''` so a stored 0 becomes empty text; a
   * missing one leaves the empty form; a failure shows a message.
   */
  function Load(page: Page, fetch: Fetch): (r: Page)
    ensures !r.loading && r.saving == page.saving && r.success == page.success
    ensures fetch.Found? ==>
      && r.form == LoadedFormAsWritten(fetch.profile)
      && (fetch.profile.emi == 0.0 <==> r.form.emi == Str(""))
      && r.snapshot == Some(r.form)
      && !HasChanges(r.form, r.snapshot)
      && r.error == page.error
    ensures fetch.NotFound? ==> r == page.(loading := false)
    ensures fetch.FetchFailed? ==> r == page.(error := LoadFailedMessage, loading := false)
  {
    match fetch
    case Found(p) =>
      var data := LoadedFormAsWritten(p);
      page.(form := data, snapshot := Some(data), loading := false)
    case NotFound => page.(loading := false)
    case FetchFailed => page.(error := LoadFailedMessage, loading := false)
  }

  /** The fetch on mount with every stored field kept as it is (`?? ''`). */
  function LoadCorrected(page: Page, fetch: Fetch): (r: Page)
    ensures !r.loading && r.saving == page.saving && r.success == page.success
    ensures fetch.Found? ==>
      && r.form == LoadedForm(fetch.profile)
      && r.snapshot == Some(r.form)
      && !HasChanges(r.form, r.snapshot)
      && r.error == page.error
    ensures !fetch.Found? ==> r == Load(page, fetch)
  {
    match fetch
    case Found(p) =>
      var data := LoadedForm(p);
      page.(form := data, snapshot := Some(data), loading := false)
    case _ => Load(page, fetch)
  }

  /** `handleChange`: exactly one field changes and both messages are cleared. */
  function Change(page: Page, k: Field, v: string): (r: Page)
    ensures Get(r.form, k) == Str(v)
    ensures forall j :: j != k ==> Get(r.form, j) == Get(page.form, j)
    ensures r.error == "" && r.success == ""
    ensures r.snapshot == page.snapshot && r.saving == page.saving && r.loading == page.loading
  {
    page.(form := SetField(page.form, k, v), error := "", success := "")
  }

  /** `disabled={!hasChanges() || saving}` on both the Save and the Reset button. */
  predicate ControlsDisabled(page: Page) {
    !HasChanges(page.form, page.snapshot) || page.saving
  }

  /** A save in flight: the form as submitted and the update sent to the store. */
  datatype PendingSave = PendingSave(submitted: Form, update: Validated)

  /** First half of `handleSubmit`: refuse with a message, or start saving. */
  datatype SaveStep = Refused(page: Page) | Saving(page: Page, pending: PendingSave)

  function BeginSave(page: Page): (r: SaveStep)
    ensures r.Refused? <==> Validate(page.form, false).Failure?
    ensures r.Refused? ==> r.page == page.(error := Message(Validate(page.form, false).error))
    ensures r.Saving? ==>
      && r.page == page.(saving := true, error := "")
      && r.pending == PendingSave(page.form, Validate(page.form, false).value)
  {
    match Validate(page.form, false)
    case Failure(e) => Refused(page.(error := Message(e)))
    case Success(v) => Saving(page.(saving := true, error := ""), PendingSave(page.form, v))
  }

  /**
   * Second half: on success the snapshot becomes the form as it was
   * submitted (untrimmed) and the success message shows; on failure the
   * error shows. Either way `saving` ends false.
   */
  function FinishSave(page: Page, pending: PendingSave, saved: bool): (r: Page)
    ensures !r.saving && r.form == page.form
    ensures saved ==> r.snapshot == Some(pending.submitted) && r.success == SavedMessage && r.error == page.error
    ensures !saved ==> r.snapshot == page.snapshot && r.error == SaveFailedMessage && r.success == page.success
  {
    if saved then page.(snapshot := Some(pending.submitted), success := SavedMessage, saving := false)
    else page.(error := SaveFailedMessage, saving := false)
  }

  /** The page after a whole save, and the update sent to the store, if one was. */
  datatype Outcome = Outcome(page: Page, sent: Option<Validated>)

  /** `handleSubmit`, with the store's answer given as `saved` and no edit while it is pending. */
  function Save(page: Page, saved: bool): (r: Outcome)
    ensures r.sent.Some? <==> Validate(page.form, false).Success?
    ensures r.sent.None? ==> r.page == page.(error := Message(Validate(page.form, false).error))
    ensures r.sent.Some? ==> r.sent.value == Validate(page.form, false).value
    ensures r.sent.Some? ==> !r.page.saving && r.page.form == page.form
    ensures r.sent.Some? && saved ==> !HasChanges(r.page.form, r.page.snapshot) && ControlsDisabled(r.page)
    ensures r.sent.Some? && !saved ==> r.page.snapshot == page.snapshot && r.page.error == SaveFailedMessage
  {
    match BeginSave(page)
    case Refused(q) => Outcome(q, None)
    case Saving(q, pending) => Outcome(FinishSave(q, pending, saved), Some(pending.update))
  }

  /** The `setTimeout` callback three seconds after a save: the success message goes. */
  function ClearSuccess(page: Page): (r: Page)
    ensures r.success == "" && r.form == page.form && r.snapshot == page.snapshot && r.error == page.error
  {
    page.(success := "")
  }

  /**
   * `handleReset` as written: `setFormData(originalData)`. Without a
   * snapshot the form becomes `null` and the next render throws; `None`
   * stands for that crash.
   */
  function ResetAsWritten(page: Page): (r: Option<Page>)
    ensures r.None? <==> page.snapshot.None?
    ensures r.Some? ==> r.value.form == page.snapshot.value && r.value.error == "" && r.value.success == ""
    ensures r.Some? ==> r.value == Reset(page) && !HasChanges(r.value.form, r.value.snapshot)
  {
    match page.snapshot
    case None => None
    case Some(s) => Some(page.(form := s, error := "", success := ""))
  }

  /**
   * `handleReset` with the form kept when nothing was ever loaded: the form
   * returns to the snapshot, if there is one, and both messages clear.
   */
  function Reset(page: Page): (r: Page)
    ensures page.snapshot.Some? ==> !HasChanges(r.form, r.snapshot)
    ensures page.snapshot.None? ==> r.form == page.form
    ensures r.snapshot == page.snapshot && r.saving == page.saving
    ensures r.error == "" && r.success == ""
  {
    match page.snapshot
    case None => page.(error := "", success := "")
    case Some(s) => page.(form := s, error := "", success := "")
  }

  /**
   * Without a loaded profile Reset is enabled (a `null` snapshot differs from
   * every form) and, as written, clicking it crashes the page.
   */
  lemma ResetWithoutProfileCrashes(fetch: Fetch)
    requires !fetch.Found?
    ensures !ControlsDisabled(Load(Initial, fetch))
    ensures ResetAsWritten(Load(Initial, fetch)) == None
    ensures Reset(Load(Initial, fetch)).form == EmptyForm
  {
  }

  /** One keystroke-level edit: the input named `field` now holds `text`. */
  datatype Edit = Edit(field: Field, text: string)

  /** The page after the edits, applied in order through `handleChange`. */
  function ApplyEdits(page: Page, edits: seq<Edit>): (r: Page)
    ensures r.snapshot == page.snapshot && r.saving == page.saving
    ensures edits != [] ==> r.error == "" && r.success == ""
    ensures edits == [] ==> r == page
    decreases |edits|
  {
    if edits == [] then page
    else ApplyEdits(Change(page, edits[0].field, edits[0].text), edits[1..])
  }

  /** Reset undoes any sequence of edits since the last load or save and disables both buttons again. */
  lemma ResetRestoresSnapshot(page: Page, edits: seq<Edit>)
    requires page.snapshot.Some?
    ensures Reset(ApplyEdits(page, edits)).form == page.snapshot.value
    ensures ControlsDisabled(Reset(ApplyEdits(page, edits)))
  {
  }

  /**
   * As written, a stored EMI of 0 loads as empty text, so after an edit to
   * a goal the save is refused for the EMI the user never touched, and
   * nothing is written.
   */
  lemma ZeroEmiRefusedAsWritten(p: UserProfile, g: string, saved: bool)
    requires WellFormed(p) && p.income > 0.0 && p.expenses > 0.0 && p.emi == 0.0
    ensures
      var page := Change(Load(Initial, Found(p)), ShortTermGoals, g);
      && Save(page, saved).sent == None
      && Save(page, saved).page.error == Message(InvalidEmi)
  {
    var page := Change(Load(Initial, Found(p)), ShortTermGoals, g);
    ZeroEmiLoadsEmpty(p, g);
    assert page.form == SetField(LoadedFormAsWritten(p), ShortTermGoals, g);
    RefusedAtEmi(p, page.form);
  }

  lemma ZeroEmiLoadsEmpty(p: UserProfile, g: string)
    requires p.income > 0.0 && p.expenses > 0.0 && p.emi == 0.0
    ensures SetField(LoadedFormAsWritten(p), ShortTermGoals, g)
         == Form(p.name, Num(p.income), Num(p.expenses), Str(""), g, p.longTermGoals)
  {
  }

  /** The empty text parses to NaN. */
  lemma EmptyTextIsNaN()
    ensures AmountOf(Str("")) == None
  {
    JsNumber.ParseFloatShape("");
  }

  /** A form with a well-formed profile's name and non-negative income and expenses, and an empty EMI, is refused for the EMI. */
  lemma RefusedAtEmi(p: UserProfile, f: Form)
    requires WellFormed(p) && f.name == p.name
    requires f.income == Num(p.income) && f.expenses == Num(p.expenses) && f.emi == Str("")
    ensures Validate(f, false) == Failure(InvalidEmi)
  {
    NamePresent(p);
    EmptyTextIsNaN();
    assert ValidAmount(f.income) && ValidAmount(f.expenses) && !ValidAmount(f.emi);
  }

  /** The stored name of a well-formed profile passes the name check. */
  lemma NamePresent(p: UserProfile)
    requires WellFormed(p)
    ensures !JsText.Blank(p.name)
  {
    JsText.TrimEmptyIffBlank(p.name);
  }

  /**
   * With every stored amount kept, a well-formed profile saved back after an
   * edit to a goal writes the same name and amounts and the trimmed goal.
   */
  lemma SavedBackAfterGoalEdit(p: UserProfile, g: string, saved: bool)
    requires WellFormed(p)
    ensures
      var page := Change(LoadCorrected(Initial, Found(p)), ShortTermGoals, g);
      Save(page, saved).sent == Some(Validated(
        p.name, p.income, p.expenses, p.emi, JsText.Trim(g), p.longTermGoals))
  {
    var page := Change(LoadCorrected(Initial, Found(p)), ShortTermGoals, g);
    var f := Form(p.name, Num(p.income), Num(p.expenses), Num(p.emi), g, p.longTermGoals);
    assert page.form == f;
    NamePresent(p);
    StoredAmountsValidate(p, f, false);
  }

  /** A form holding a well-formed profile's name, amounts and long-term goals validates to them. */
  lemma StoredAmountsValidate(p: UserProfile, f: Form, checkOverspend: bool)
    requires WellFormed(p) && !checkOverspend
    requires f.name == p.name && f.longTermGoals == p.longTermGoals
    requires f.income == Num(p.income) && f.expenses == Num(p.expenses) && f.emi == Num(p.emi)
    ensures Validate(f, checkOverspend) ==
      Success(Validated(p.name, p.income, p.expenses, p.emi, JsText.Trim(f.shortTermGoals), p.longTermGoals))
  {
    NamePresent(p);
    assert ValidAmount(f.income) && ValidAmount(f.expenses) && ValidAmount(f.emi);
  }

  /**
   * Loading a well-formed profile and validating the untouched form gives
   * back its stored fields with the corrected load; as written, a stored
   * zero amount makes that fail, and any non-zero amounts round-trip.
   */
  lemma ZeroAmountRoundTrip(p: UserProfile)
    requires WellFormed(p)
    ensures Validate(LoadCorrected(Initial, Found(p)).form, false) ==
      Success(Validated(p.name, p.income, p.expenses, p.emi, p.shortTermGoals, p.longTermGoals))
    ensures (p.income == 0.0 || p.expenses == 0.0 || p.emi == 0.0) <==>
      Validate(Load(Initial, Found(p)).form, false).Failure?
  {
    StoredAmountsValidate(p, LoadedForm(p), false);
    var w := LoadedFormAsWritten(p);
    assert p.income != 0.0 && p.expenses != 0.0 && p.emi != 0.0 ==> w == LoadedForm(p);
    NamePresent(p);
    EmptyTextIsNaN();
    assert p.income == 0.0 ==> !ValidAmount(w.income);
    assert p.expenses == 0.0 ==> !ValidAmount(w.expenses);
    assert p.emi == 0.0 ==> !ValidAmount(w.emi);
  }
}

=== FILE: profiles.dfy ===
/** The stored user profile and the outcome of reading it. */
module Profiles {
  import JsText

  /**
   * The profile document onboarding writes, one per user. The timestamps
   * `createdAt` and `updatedAt` are not modelled.
   */
  datatype UserProfile = UserProfile(
    name: string,
    email: string,
    income: real,
    expenses: real,
    emi: real,
    shortTermGoals: string,
    longTermGoals: string)

  /** Outcome of `getUserProfile`: the document, no document (`null`), or a thrown error. */
  datatype Fetch = Found(profile: UserProfile) | NotFound | FetchFailed

  /** What a successful onboarding submission guarantees of the document it writes. */
  predicate WellFormed(p: UserProfile) {
    && p.name != []
    && JsText.Trim(p.name) == p.name
    && JsText.Trim(p.shortTermGoals) == p.shortTermGoals
    && JsText.Trim(p.longTermGoals) == p.longTermGoals
    && p.income >= 0.0 && p.expenses >= 0.0 && p.emi >= 0.0
  }
}

=== FILE: wrappers.dfy ===
/** Option and Result types shared by the whole model. */
module Wrappers {

  /** A value that may be absent: JavaScript's `null`/`undefined` or NaN. */
  datatype Option<+T> = None | Some(value: T)

  /** The outcome of an operation that either produces a value or fails. */
  datatype Result<+R, +E> = Success(value: R) | Failure(error: E)
}
